=== FILE: README.md ===
# Hair-salon day schedule: slot allocator model

This project models the booking core of a Telegram bot for a hair salon.

- A **work day** has working hours and a list of **appointment slots**. Each slot has a start time, an end time, an optional procedure label, an optional user, an `available` flag and a `cancelled` flag.
- The first time a day is consulted, it is seeded with one free slot covering the working hours.
- A **procedure** turns the requester's hair length and density into a **plan**: a total duration and stage durations, in minutes. Three-stage procedures have a work stage, a wait and a second work stage.
- The **search** sorts the available slots by start time. It skips the requester's own slots unless the requester's first name is `bot_one`. It takes the first slot long enough for the total, and reports the offer as `%H:%M` times plus an "exact fit" flag.
- The **commit** looks up the slot that starts at the confirmed time and deletes it. It then lays the stages from that time: odd stages are busy and labelled, even (wait) stages stay available. When the fit was not exact, it adds a trailing free slot.
- Around the core sit:
  - the procedure registry of the chat handlers;
  - the normalisation of the booking-mode marker;
  - the choice of whose hair attributes a search uses (the caller or one of the fixed users 111 and 222);
  - the decoding of procedure names from button data;
  - the parsing of the confirmed start time and flag;
  - the three-field photo upload of an authentication request.

Times are minutes since midnight (`Clock.Minute`, 0..1439). `datetime.time()` of an instant past midnight wraps; `Clock.ClockOf` models that wrap explicitly.

Modules:
- `Wrappers`: `Option` and `Result`.
- `Clock`: minutes, and `%H:%M` formatting and parsing.
- `Text`: character replace, split and join.
- `Catalog`: procedures and their duration tables.
- `Schedule`: slots, seeding, search and commit.
- `Partitions`: the partition invariant and the allocator as it is meant to work.
- `AuthRequest`: the photo fields.
- `DayHandlers`: the pure parts of the handlers.
- `Scenarios`: worked days, including the one that exhibits the finding below.

The skip rule follows the code. The code skips a slot when the user it refers to is the requester (same primary key), unless the requester's first name is `bot_one`. The name is read from the user's row at search time, so the model reads it from the requester, not from the copy of the user kept in the slot. So an account whose first name is `bot_one` never skips its own slots, and any other account always skips its own wait slots.

## Model

| member | source | states |
|---|---|---|
| Clock.FormatHM | schedules/models.py:88-89 | `strftime('%H:%M')` renders two-digit hours at most 23 and two-digit minutes at most 59 around a colon, and the two fields denote the time |
| Clock.ParseHM | tgbot/handlers/day/handlers.py:179 | `strptime('%H:%M')` accepts exactly a one- or two-digit hour of at most 23, a colon and a one- or two-digit minute of at most 59, and yields 60 times the hour plus the minute |
| Clock.ParseFormat | tgbot/handlers/day/handlers.py:179 | `strptime('%H:%M')` of a time rendered with `strftime('%H:%M')` gives that time back |
| Clock.FormatParse | tgbot/handlers/day/handlers.py:179 | a five-character string that `strptime('%H:%M')` accepts is the zero-padded rendering of the time it yields, so the rendering is canonical |
| Text.ReplaceChar | schedules/models.py:232 | `str.replace` of one character keeps the length and changes exactly the matching positions |
| Text.JoinSplit | tgbot/handlers/day/handlers.py:122 | `' '.join(s.split('_'))` equals replacing every underscore by a space |
| Text.ReplaceBack | schedules/models.py:231-232 | replacing spaces by underscores and back restores a string that had no underscore |
| Catalog.LengthKey | schedules/models.py:243 | only the keys `SHORT`, `MEDIUM` and `LONG` exist; any other string is a missing key |
| Catalog.DensityKey | schedules/models.py:243 | only the keys `THIN`, `MEDIUM` and `THICK` exist; any other string is a missing key |
| Catalog.UnderlineName | schedules/models.py:231-232 | the button name keeps the length of the English name, has no space, turns every space into an underscore and keeps every other character |
| Catalog.CalculateDuration | schedules/models.py:241-277 | a permanent procedure gives one stage `table[density][length]`; a non-permanent one gives three stages (stage 1 entry, wait, stage 3 entry); the total is the sum of the stages; the area procedures ignore the attributes; a missing key is an error exactly when the procedure uses a table |
| Catalog.PositivePlans | schedules/models.py:241-277 | a procedure whose table entries and wait are positive yields only plans with positive stages summing to the total |
| Catalog.AllPositive | schedules/models.py:280-620 | every concrete procedure has positive entries in every cell of every table |
| Catalog.CatalogSamples | schedules/models.py:280-620 | table entries as the classes define them, e.g. Haircut THIN/SHORT is 60 and Simple Color THIN/SHORT is (10, 40, 10); the area procedures give 120 and 40 minutes and the hair check 15; attributes passed in swapped order are missing keys |
| Schedule.GetTotalTime | schedules/models.py:166-172 | combining both times with the same date and subtracting gives the slot's span whatever the date; it is positive exactly when the slot ends after it starts |
| Schedule.Available | schedules/models.py:52 | the filter keeps exactly the available slots |
| Schedule.GetOrCreateAppointmentsSlots | schedules/models.py:35-54 | an empty day gets one available slot spanning the working hours; a non-empty day is unchanged; exactly the available slots are returned; nothing but the slot list changes |
| Schedule.SeedingIdempotent | schedules/models.py:35-54 | a second call changes nothing and returns the same slots |
| Schedule.InsertByStart | schedules/models.py:62 | inserting into a start-sorted list keeps it sorted and adds exactly the one slot |
| Schedule.SortByStart | schedules/models.py:62 | the sort returns a start-sorted permutation of its input |
| Schedule.InsertKeepsTies | schedules/models.py:62 | an inserted slot goes before every slot with its start time, and those slots keep their order |
| Schedule.SortByStartStable | schedules/models.py:62 | the sort is stable: the slots sharing any one start time come out in their original order |
| Schedule.SkipRule | schedules/models.py:67-69 | unassigned slots and other users' slots are never skipped; a slot whose user has the requester's key is skipped exactly when the requester's first name is not `bot_one` |
| Schedule.FirstFitFrom | schedules/models.py:67-79 | the loop stops at the first non-skipped slot whose span (`get_total_time`, end minus start) is at least the total, and every slot before it fails that test; it reports no slot when none passes |
| Schedule.FindFit | schedules/models.py:60-83 | there is no fit exactly when no candidate qualifies; otherwise the chosen slot is a qualifying candidate, no candidate starting earlier qualifies, and the fit is exact exactly when the span equals the total |
| Schedule.GetAvailableTimeSlot | schedules/models.py:56-96 | the reply is `cancelled` exactly when no available slot of the seeded day qualifies; otherwise it offers an available qualifying slot with no earlier qualifying one; the reply gives the slot's start and the start plus the total as `%H:%M`, and flags the fit as exact exactly when the span equals the total |
| Schedule.OfferSound | schedules/models.py:85-96 | the offer built from the search result satisfies every clause of an offer for that slot |
| Schedule.IndexStartingAt | schedules/models.py:107 | the lookup finds the first slot that starts at the given time |
| Schedule.RemoveOnly | schedules/models.py:107-109 | deleting the only slot that starts at the time keeps every other slot, in order |
| Schedule.StageSlotAt | schedules/models.py:113-128 | stage `i` starts at the start plus the first `i` durations and ends after its own duration; odd stages are busy and labelled, even stages are available and unlabelled, and all of them belong to the requester |
| Schedule.StageLayout | schedules/models.py:113-128 | the loop creates exactly one slot per stage, each as `StageAt` describes |
| Schedule.Commit | schedules/models.py:107-140 | a commit keeps the other slots in order, adds the stages as laid out, and adds one trailing free slot ending at the given end exactly when the fit was not exact |
| Schedule.MakeAppointment | schedules/models.py:98-144 | the lookup fails with `DoesNotExist` when no slot starts at the time and with `MultipleObjectsReturned` when several do; otherwise the commit runs with the trailing slot ending at the end of the working day |
| Schedule.ConsumedSlot | schedules/models.py:107 | the looked-up slot belongs to the day and starts at the time |
| Schedule.MakeAppointmentReclaiming | schedules/models.py:131-140 | the same lookup errors, with the trailing slot ending where the consumed slot ended |
| Partitions.SeedPartition | schedules/models.py:38-46 | seeding an empty day partitions it: slots inside the hours, non-empty, pairwise disjoint, lengths adding up to the working day |
| Partitions.PartitionUniqueStarts | schedules/models.py:107 | in a partitioned day no two slots share a start time, so the commit's lookup is unambiguous |
| Partitions.UniqueLookup | schedules/models.py:107 | with distinct start times, the lookup by a slot's start finds exactly that slot |
| Partitions.StagesInside | schedules/models.py:113-128 | without wrap-around, stage `i` covers the start plus the first `i` durations up to the start plus the first `i + 1` |
| Partitions.StagesDisjoint | schedules/models.py:113-128 | positive stages never overlap one another |
| Partitions.StageSlotsSpan | schedules/models.py:113-128 | without wrap-around, the stages' lengths add up to the sum of the durations |
| Partitions.LayoutFills | schedules/models.py:113-140 | the stages, plus the trailing slot when the fit is not exact, exactly fill a slot that ends where the stages (or the trailing slot) end |
| Partitions.NewSlotsFill | schedules/models.py:113-140 | the slots a commit adds, with the trailing slot ending at the consumed slot's end, fill the consumed slot |
| Partitions.ReplaceKeepsPartition | schedules/models.py:107-140 | replacing one slot of a partitioned day by slots that fill it keeps the day partitioned |
| Partitions.CommitKeepsPartition | schedules/models.py:107-140 | a commit into a slot of a partitioned day, with the trailing slot ending at that slot's end, keeps the day partitioned |
| Partitions.FoundSlotUnique | schedules/models.py:60-109 | on a partitioned day, the slot the search offers is the only one of the seeded day starting at its start time, so the confirmed commit finds it |
| Partitions.Book | schedules/models.py:56-144 | a booking seeds the day, searches, and commits the fit with the reclaiming commit (`Schedule.MakeAppointmentReclaiming`); it changes only the slot list, reports the search's fit when the commit succeeds, and otherwise leaves the seeded day |
| Partitions.BookOutcome | schedules/models.py:56-144 | on a partitioned day, a booking with the reclaiming commit does nothing beyond seeding when the search finds nothing; otherwise it commits the slot found, and the lookup succeeds |
| Partitions.BookKeepsPartition | schedules/models.py:56-144 | a booking (seed, search, commit with the trailing slot ending at the consumed slot's end) keeps the day partitioned and reports the search's fit |
| Partitions.BookStep | schedules/models.py:56-144 | after one booking with the reclaiming commit the day is still one the allocator can work on |
| Partitions.BookAll | schedules/models.py:56-144 | bookings made one after another with the reclaiming commit change only the slot list of the day |
| Partitions.BookAllKeepsPartition | schedules/models.py:56-144 | any sequence of bookings with the reclaiming commit keeps the day partitioned: no overlap, and no time created or lost |
| Partitions.MakeAppointmentAtDayEnd | schedules/models.py:131-140 | the commit as written succeeds and keeps the day partitioned when the consumed slot ends at the end of the working day |
| AuthRequest.AddPhoto | schedules/models.py:191-206 | the photo goes into the first empty field among first, second and third; filled fields are never overwritten and the other fields are unchanged; the call reports whether a field was empty; with all three filled it changes nothing |
| AuthRequest.FillsInOrder | schedules/models.py:191-206 | three uploads fill the three fields in order, and a fourth is refused |
| DayHandlers.Values | tgbot/handlers/day/handlers.py:60 | `list(procedure_classes.values())` lists the procedures in insertion order |
| DayHandlers.LookupIn | tgbot/handlers/day/handlers.py:123 | the lookup succeeds exactly when the key is registered, and returns that key's procedure |
| DayHandlers.RegistryKeys | tgbot/handlers/day/handlers.py:22-35 | every key of the registry is its procedure's English name |
| DayHandlers.RegistryDistinct | tgbot/handlers/day/handlers.py:22-35 | no two entries share a key |
| DayHandlers.RegistryFollowsCatalog | tgbot/handlers/day/handlers.py:22-35 | the registry lists the catalogue's procedures in order, except the hair check |
| DayHandlers.RegistryOmitsHairCheck | tgbot/handlers/day/handlers.py:34 | the hair check is not registered, and looking up its name fails |
| DayHandlers.NormaliseSelectWay | tgbot/handlers/day/handlers.py:71-82 | `ONEWAY#` and `True#` become `True#`; `MULTIPLEWAY#` and `False#` become `False#`; both modes show the whole registry; any other marker is kept and loses the last entry |
| DayHandlers.ShortListOmitsHighlights | tgbot/handlers/day/handlers.py:71 | the entry the shortened list drops is Highlights, which appears nowhere else in it |
| DayHandlers.NormaliseIdempotent | tgbot/handlers/day/handlers.py:77-82 | normalising twice is the same as normalising once |
| DayHandlers.RequesterId | tgbot/handlers/day/handlers.py:112-117 | `True#` selects user 111, `False#` selects user 222, and anything else selects the caller |
| DayHandlers.ModeSelectsRequester | tgbot/handlers/day/handlers.py:112-117 | after normalisation, either spelling of a mode selects that mode's account, and a client's own marker selects the caller |
| DayHandlers.FindUser | tgbot/handlers/day/handlers.py:113-117 | the lookup by user id succeeds exactly when such a user exists, and returns a user with that id |
| DayHandlers.DecodeProcedureName | tgbot/handlers/day/handlers.py:122 | decoding replaces every underscore of the button data by a space |
| DayHandlers.DecodeUnderline | schedules/models.py:231-232 | decoding undoes `get_underline_name` for a name without underscores |
| DayHandlers.ButtonsResolve | tgbot/handlers/day/handlers.py:122-123 | the name carried by every registered procedure's button decodes and looks up to that same procedure |
| DayHandlers.GetProcedureStages | tgbot/handlers/day/handlers.py:97-103 | the requester's length and density are passed in that order, and the table is indexed density first; area procedures always succeed; table procedures fail exactly on an unknown key; positive procedures give valid plans |
| DayHandlers.ParseFlag | tgbot/handlers/day/handlers.py:180 | the flag is false exactly for the text `False` |
| DayHandlers.FlagRoundTrip | tgbot/handlers/day/keyboards.py:39 | the flag rendered with `str(bool)` parses back to itself |
| DayHandlers.ParseStartTime | tgbot/handlers/day/handlers.py:179 | a rendered time parses back to itself; a five-character input that parses is the rendering of its result; only three- to five-character inputs parse |
| DayHandlers.OfferCommits | tgbot/handlers/day/handlers.py:176-186 | on a partitioned day, an offer passed back unchanged through the confirmation buttons parses, and its commit finds exactly one slot at the offered start |
| Scenarios.BotoxStages | schedules/models.py:382-421 | Botox for short thin hair is 15 minutes of work, a 60-minute wait and 10 minutes of work |
| Scenarios.AnnaBooksBotox | schedules/models.py:98-144 | on an empty 09:00-18:00 day, a Botox booking leaves two busy stages, the available wait and the rest of the day free, and the day stays partitioned |
| Scenarios.TrailingSlotOverlaps | schedules/models.py:131-140 | the commit as written of a 40-minute procedure into the 60-minute wait adds a free slot running to 18:00; that slot overlaps the first client's last stage, and the slots add up to 1005 minutes in a 540-minute day |
| Scenarios.DoubleBooking | schedules/models.py:56-144 | after that commit, a third client with short hair asking for a haircut (60 minutes) is offered 09:55, and the commit as written books her 09:55-10:55, so her busy slot and Anna's busy 10:15-10:25 overlap |
| Scenarios.ReclaimingKeepsPartition | schedules/models.py:131-140 | with the trailing slot ending where the wait ended, the same booking keeps the day partitioned |
| Scenarios.AnnaCommitsAsWritten | schedules/models.py:98-144 | on the seeded empty day, the commit as written of Anna's Botox gives the same day as the reclaiming commit |
| Scenarios.ColourStages | schedules/models.py:300-339 | Simple Color for short thick hair is 20 minutes of work, a 40-minute wait and 10 minutes of work |
| Scenarios.CarlaOffered | schedules/models.py:60-83 | after the overlapping commit, a third client's 70-minute request is offered 09:55, the start of the overlapping free slot, as a non-exact fit |
| Scenarios.ColourCommit | schedules/models.py:98-144 | the commit as written of that colour at 09:55 succeeds and lays Carla's stages 09:55-10:15, 10:15-10:55 (wait) and 10:55-11:05, plus a free slot 11:05-18:00 |
| Scenarios.ColourCandidates | schedules/models.py:52 | the available slots are then the rest of Anna's day, Carla's wait and the free slot after Carla |
| Scenarios.BorisOfferedCarlaWait | schedules/models.py:60-83 | Boris's next 40-minute request fits Carla's 40-minute wait exactly |
| Scenarios.StartClash | schedules/models.py:107 | two slots of that day start at 10:15: Anna's last stage and Carla's wait |
| Scenarios.BorisOfferAt1015 | schedules/models.py:56-96 | the search offers Boris 10:15-10:55 as an exact fit |
| Scenarios.OfferedStartClashes | tgbot/handlers/day/handlers.py:176-186 | that offer, passed back through the confirmation buttons, parses to 10:15, and its commit as written fails with `MultipleObjectsReturned` |

## Left out

- Persistence: the Django ORM (the many-to-many `add`, `create`, `save`, `delete` and the `objects.get` lookups) is modelled as pure functions over a sequence of slots. The unspecified database order of the slot list is represented by the order of the sequence. Removal keeps order and new slots go last.
- Uniqueness of `user_id` among users is not modelled: `DayHandlers.FindUser` returns the first match. The database raises `MultipleObjectsReturned` on duplicates, which a unique key rules out.
- The Telegram transport: message editing and sending, the dispatcher, keyboard construction, and the split of callback data at fixed positions. The callback-prefix constants are not part of this model, so the positions cannot be checked. Only the `str(bool)` rendering of the flag is kept.
- Concurrency and stale commits: the model is sequential. Two searches followed by two commits on the same day are not modelled.
- `datetime.now()` in `get_total_time`: the source calls it twice, once per time. The model assumes both calls return the same date, so a midnight passing between the two calls is not modelled. That date is a parameter of `Schedule.GetTotalTime` and cancels out; the search uses the span, end minus start in minutes (`Schedule.Span`). The span is negative for a slot that ends before it starts.
- `str(user.hair_length)` and `str(user.hair_density)` in `get_procedure_stages`: these are enum fields of the user model, which is not part of this model. The model assumes `str()` gives the bare key (`SHORT`, `THIN` and so on), and a `User` holds those strings.
- Seconds and microseconds of `TimeField` values: every time is a whole minute.
- Non-ASCII digits: `strptime` accepts them through `\d`, but `Clock.ParseHM` accepts only `0`-`9`. Case-insensitive matching and the surrounding-whitespace rules of `strptime` are also not modelled.
- File I/O in `add_photo` (opening the file, naming the stored image): only which field is filled is modelled, with the stored name given as a parameter.
- `get_day_of_week`, the debug `print`s, `__str__` methods, `get_complexity_name`, the admin handlers, the decorators, the migrations and the admin configuration: none of these has algorithmic content.
- Wrap-around past midnight: `Clock.ClockOf` models it in the slot times and the offered end time. The partition lemmas require that the stages end before midnight; this follows from the slot lying within the working hours.
- Partitions.FoundSlotUnique: holds only on a partitioned day. On a day the commit as written reaches, the offered start can be shared by two slots (`Scenarios.StartClash`), and then the confirmed commit fails (`Scenarios.OfferedStartClashes`).
- DayHandlers.OfferCommits: holds only on a partitioned day. The commit as written (`Schedule.MakeAppointment`) does not keep a day partitioned, so on the days it reaches an offer can fail to commit with `MultipleObjectsReturned` (`Scenarios.OfferedStartClashes`).
- Schedule.OfferSound: the offer names its times as `%H:%M` strings rather than minutes. `Clock.ParseFormat` is the link back to minutes.

## Findings

| source | as written | input that shows it | evidently intended | confidence | as-written member | corrected member |
|---|---|---|---|---|---|---|
| schedules/models.py:131-140 | the trailing free slot of a non-exact fit runs from the end of the last stage to `work_hour_end` | day 09:00-18:00 holding Anna's Botox (09:00-09:15 busy, 09:15-10:15 available wait, 10:15-10:25 busy, 10:25-18:00 free); Boris books a 40-minute temple extension, which takes the wait; the new free slot 09:55-18:00 overlaps 10:15-10:25. A third client, Carla (short, thick hair), asking for a haircut (60 minutes) is offered 09:55 and booked 09:55-10:55 across Anna's busy 10:15-10:25. If Carla instead books Simple Color (20, 40 and 10 minutes), she is offered 09:55; the commit leaves her wait and Anna's last stage both starting at 10:15; Boris's next 40-minute request is offered 10:15 as an exact fit, and its commit raises `MultipleObjectsReturned` | the trailing slot ends where the consumed slot ended (here 10:15), so only the unused part of that slot is handed out again and the day stays a partition of its working hours | high (not executed) | Schedule.MakeAppointment, Scenarios.TrailingSlotOverlaps, Scenarios.OfferedStartClashes | Schedule.MakeAppointmentReclaiming, Partitions.BookKeepsPartition |

The two coincide when the consumed slot ends at the end of the working day (`Partitions.MakeAppointmentAtDayEnd`). That is always the case on a day with a single client other than `bot_one`, which is why the defect stays hidden until a second client is fitted into a wait.

=== FILE: auth_request.dfy ===
/**
 The photo fields of a user's authentication request: three image fields
 filled in order, one per uploaded photo.
 */
module AuthRequest {
  import opened Wrappers

  /** An empty `ImageField` is `None`; a filled one holds the stored name. */
  datatype AuthenticationRequest = AuthenticationRequest(
    userId: int,
    hairPhotoFirst: Option<string>,
    hairPhotoSecond: Option<string>,
    hairPhotoThree: Option<string>)

  function Photos(r: AuthenticationRequest): seq<Option<string>> {
    [r.hairPhotoFirst, r.hairPhotoSecond, r.hairPhotoThree]
  }

  function FilledCount(r: AuthenticationRequest): nat {
    (if r.hairPhotoFirst.Some? then 1 else 0)
      + (if r.hairPhotoSecond.Some? then 1 else 0)
      + (if r.hairPhotoThree.Some? then 1 else 0)
  }

  /** `UserAuthenticationRequest.add_photo`: stores `photo` in the first empty
      field and reports whether there was one. */
  function AddPhoto(r: AuthenticationRequest, photo: string): (res: (AuthenticationRequest, bool))
    ensures res.0.userId == r.userId
    ensures res.1 <==> exists i :: 0 <= i < 3 && Photos(r)[i].None?
    ensures forall i :: 0 <= i < 3 && Photos(r)[i].Some? ==> Photos(res.0)[i] == Photos(r)[i]
    ensures res.1 ==> exists i :: 0 <= i < 3
                        && Photos(r)[i].None? && Photos(res.0)[i] == Some(photo)
                        && (forall j :: 0 <= j < i ==> Photos(r)[j].Some?)
                        && (forall j :: 0 <= j < 3 && j != i ==> Photos(res.0)[j] == Photos(r)[j])
    ensures !res.1 ==> res.0 == r
    ensures FilledCount(res.0) == FilledCount(r) + (if res.1 then 1 else 0)
  {
    if r.hairPhotoFirst.None? then
      var n := r.(hairPhotoFirst := Some(photo));
      assert Photos(r)[0].None? && Photos(n)[0] == Some(photo);
      (n, true)
    else if r.hairPhotoSecond.None? then
      var n := r.(hairPhotoSecond := Some(photo));
      assert Photos(r)[1].None? && Photos(n)[1] == Some(photo);
      (n, true)
    else if r.hairPhotoThree.None? then
      var n := r.(hairPhotoThree := Some(photo));
      assert Photos(r)[2].None? && Photos(n)[2] == Some(photo);
      (n, true)
    else
      (r, false)
  }

  /** Photos land in the fields in upload order; a fourth is refused. */
  lemma FillsInOrder(userId: int, a: string, b: string, c: string, d: string)
    ensures var r0 := AuthenticationRequest(userId, None, None, None);
            var r1 := AddPhoto(r0, a);
            var r2 := AddPhoto(r1.0, b);
            var r3 := AddPhoto(r2.0, c);
            var r4 := AddPhoto(r3.0, d);
            && r1.1 && r2.1 && r3.1 && !r4.1
            && r3.0 == AuthenticationRequest(userId, Some(a), Some(b), Some(c))
            && r4.0 == r3.0
  {
  }
}

=== FILE: catalog.dfy ===
/**
 The procedure catalog: each procedure turns a requester's hair length and
 density into a total duration and an ordered list of stage durations, all in
 minutes. Lookup tables are indexed density first, then length.
 */
module Catalog {
  import opened Wrappers
  import Text

  datatype HairLength = Short | Medium | Long
  datatype HairDensity = Thin | Medium | Thick
  datatype Complexity = Easy | Average | Difficult

  /** The dictionary key strings, taken to be what `str()` of the user's hair
      attributes gives; any other string is a missing key (`KeyError`). */
  function LengthKey(s: string): (r: Option<HairLength>)
    ensures r == Some(HairLength.Short) <==> s == "SHORT"
    ensures r == Some(HairLength.Medium) <==> s == "MEDIUM"
    ensures r == Some(HairLength.Long) <==> s == "LONG"
  {
    if s == "SHORT" then Some(HairLength.Short)
    else if s == "MEDIUM" then Some(HairLength.Medium)
    else if s == "LONG" then Some(HairLength.Long)
    else None
  }

  function DensityKey(s: string): (r: Option<HairDensity>)
    ensures r == Some(HairDensity.Thin) <==> s == "THIN"
    ensures r == Some(HairDensity.Medium) <==> s == "MEDIUM"
    ensures r == Some(HairDensity.Thick) <==> s == "THICK"
  {
    if s == "THIN" then Some(HairDensity.Thin)
    else if s == "MEDIUM" then Some(HairDensity.Medium)
    else if s == "THICK" then Some(HairDensity.Thick)
    else None
  }

  /** One inner dictionary: minutes by hair length. */
  datatype Row = Row(short: nat, medium: nat, long: nat) {
    function At(l: HairLength): nat {
      match l
      case Short => short
      case Medium => medium
      case Long => long
    }
  }

  /** A full 3x3 table `table[density][length]`; being a record, it has an
      entry for every key pair. */
  datatype Table = Table(thin: Row, medium: Row, thick: Row) {
    function At(d: HairDensity, l: HairLength): nat {
      match d
      case Thin => thin.At(l)
      case Medium => medium.At(l)
      case Thick => thick.At(l)
    }
  }

  /** How a procedure computes its duration. */
  datatype Duration =
    | ByTable(table: Table)                              // ProcedurePermanent
    | ThreeStage(stage1: Table, wait: nat, stage3: Table) // ProcedureNonPermanent
    | Fixed(minutes: nat)                                // area-based, attributes ignored

  datatype Procedure = Procedure(nameEng: string, nameRus: string, complexity: Complexity, duration: Duration)

  /** The dictionary `calculate_duration` returns: `end_time` and the values of
      `stages`, in order. */
  datatype Plan = Plan(total: nat, stages: seq<nat>)

  function Sum(s: seq<nat>): nat {
    if s == [] then 0 else s[0] + Sum(s[1..])
  }

  lemma SumOfThree(a: nat, b: nat, c: nat)
    ensures Sum([a, b, c]) == a + b + c
  {
    assert [a, b, c][1..] == [b, c];
    assert [b, c][1..] == [c];
    assert [c][1..] == [];
    assert Sum([c]) == c;
    assert Sum([b, c]) == b + c;
  }

  /** `Procedure.get_underline_name`: the English name with every space
      turned into an underscore, fit for button data. */
  function UnderlineName(p: Procedure): (r: string)
    ensures |r| == |p.nameEng|
    ensures forall i :: 0 <= i < |r| ==> r[i] != ' '
    ensures forall i :: 0 <= i < |r| && p.nameEng[i] != ' ' ==> r[i] == p.nameEng[i]
    ensures forall i :: 0 <= i < |r| && p.nameEng[i] == ' ' ==> r[i] == '_'
  {
    Text.ReplaceChar(p.nameEng, ' ', '_')
  }

  /** `calculate_duration(hair_length, hair_density)`; `None` where the table
      lookup raises `KeyError`. */
  function CalculateDuration(p: Procedure, length: string, density: string): (r: Option<Plan>)
    ensures p.duration.Fixed? ==> r == Some(Plan(p.duration.minutes, [p.duration.minutes]))
    ensures !p.duration.Fixed? ==> (r.Some? <==> LengthKey(length).Some? && DensityKey(density).Some?)
    ensures r.Some? ==> r.value.total == Sum(r.value.stages)
    ensures r.Some? ==> |r.value.stages| == if p.duration.ThreeStage? then 3 else 1
    ensures r.Some? && p.duration.ByTable? ==>
              r.value.stages == [p.duration.table.At(DensityKey(density).value, LengthKey(length).value)]
    ensures r.Some? && p.duration.ThreeStage? ==>
              var d, l := DensityKey(density).value, LengthKey(length).value;
              r.value.stages == [p.duration.stage1.At(d, l), p.duration.wait, p.duration.stage3.At(d, l)]
  {
    match p.duration
    case Fixed(m) =>
      Some(Plan(m, [m]))
    case ByTable(t) =>
      if LengthKey(length).None? || DensityKey(density).None? then None
      else
        var m := t.At(DensityKey(density).value, LengthKey(length).value);
        Some(Plan(m, [m]))
    case ThreeStage(s1, w, s3) =>
      if LengthKey(length).None? || DensityKey(density).None? then None
      else
        var d, l := DensityKey(density).value, LengthKey(length).value;
        var a, b := s1.At(d, l), s3.At(d, l);
        SumOfThree(a, w, b);
        Some(Plan(a + w + b, [a, w, b]))
  }

  /** A plan the slot allocator can lay down: its total is the sum of its
      stages and no stage is empty. */
  predicate ValidPlan(plan: Plan) {
    && plan.total == Sum(plan.stages)
    && forall i :: 0 <= i < |plan.stages| ==> plan.stages[i] > 0
  }

  predicate PositiveTable(t: Table) {
    forall d: HairDensity, l: HairLength :: t.At(d, l) > 0
  }

  /** Every stage a procedure can produce is longer than zero minutes. */
  predicate PositiveDurations(p: Procedure) {
    match p.duration
    case ByTable(t) => PositiveTable(t)
    case ThreeStage(s1, w, s3) => PositiveTable(s1) && w > 0 && PositiveTable(s3)
    case Fixed(m) => m > 0
  }

  lemma PositivePlans(p: Procedure, length: string, density: string)
    requires PositiveDurations(p)
    ensures var r := CalculateDuration(p, length, density); r.Some? ==> ValidPlan(r.value)
  {
  }

  // The concrete procedures, one per subclass.

  const HaircutTable := Table(Row(60, 60, 90), Row(60, 60, 90), Row(60, 60, 90))
  const Haircut := Procedure("Haircut", "Стрижка", Easy, ByTable(HaircutTable))

  const SimpleColor := Procedure("Simple Color", "Простое окрашивание", Easy,
    ThreeStage(Table(Row(10, 10, 10), Row(10, 10, 10), Row(20, 20, 20)),
               40,
               Table(Row(10, 10, 10), Row(10, 10, 10), Row(10, 10, 10))))

  const ComplexColor := Procedure("Complex Color", "Сложное окрашивание", Average,
    ThreeStage(Table(Row(60, 90, 90), Row(90, 90, 120), Row(120, 150, 180)),
               60,
               Table(Row(60, 60, 90), Row(90, 90, 90), Row(90, 90, 90))))

  const Botox := Procedure("Botox", "Ботокс", Average,
    ThreeStage(Table(Row(15, 15, 20), Row(20, 20, 30), Row(30, 30, 30)),
               60,
               Table(Row(10, 10, 10), Row(10, 10, 10), Row(10, 10, 10))))

  const Keratin := Procedure("Keratin", "Кератин", Average,
    ThreeStage(Table(Row(15, 15, 20), Row(20, 20, 30), Row(30, 30, 30)),
               60,
               Table(Row(10, 10, 10), Row(10, 10, 10), Row(10, 10, 10))))

  const Laying := Procedure("Laying", "Укладка", Easy,
    ByTable(Table(Row(60, 60, 60), Row(60, 60, 60), Row(60, 60, 60))))

  const Curls := Procedure("Curls", "Кудри", Easy,
    ByTable(Table(Row(60, 60, 90), Row(60, 60, 90), Row(60, 60, 90))))

  const Hairstyle := Procedure("Hairstyle", "Прическа", Difficult,
    ByTable(Table(Row(60, 60, 60), Row(60, 60, 90), Row(90, 90, 90))))

  /** `full_area`. */
  const HairExtensionsFull := Procedure("Hair ext full", "Полное наращивание волос", Average, Fixed(120))

  /** `temporal_area`. */
  const HairExtensionsTemple := Procedure("Hair ext temple", "Височное наращивание волос", Average, Fixed(40))

  const HairCheck := Procedure("Hair check", "Проверка волос", Easy, Fixed(15))

  const Highlights := Procedure("Highlights", "Мелирование", Average,
    ThreeStage(Table(Row(60, 90, 90), Row(90, 90, 120), Row(120, 150, 180)),
               60,
               Table(Row(60, 60, 90), Row(90, 90, 90), Row(90, 90, 90))))

  const AllProcedures: seq<Procedure> := [Haircut, SimpleColor, ComplexColor, Botox, Keratin, Laying,
                                          Curls, Hairstyle, HairExtensionsFull, HairExtensionsTemple,
                                          HairCheck, Highlights]

  /** Every concrete procedure yields only non-empty stages. */
  lemma AllPositive()
    ensures forall i :: 0 <= i < |AllProcedures| ==> PositiveDurations(AllProcedures[i])
  {
  }

  /** Sample entries of the tables. */
  lemma CatalogSamples()
    ensures CalculateDuration(Haircut, "SHORT", "THIN") == Some(Plan(60, [60]))
    ensures CalculateDuration(Haircut, "LONG", "THIN") == Some(Plan(90, [90]))
    ensures CalculateDuration(SimpleColor, "SHORT", "THIN") == Some(Plan(60, [10, 40, 10]))
    ensures CalculateDuration(SimpleColor, "SHORT", "THICK") == Some(Plan(70, [20, 40, 10]))
    ensures CalculateDuration(ComplexColor, "LONG", "THICK") == Some(Plan(330, [180, 60, 90]))
    ensures CalculateDuration(Hairstyle, "LONG", "MEDIUM") == Some(Plan(90, [90]))
    ensures CalculateDuration(HairExtensionsFull, "", "") == Some(Plan(120, [120]))
    ensures CalculateDuration(HairExtensionsTemple, "LONG", "THIN") == Some(Plan(40, [40]))
    ensures CalculateDuration(HairCheck, "SHORT", "THIN") == Some(Plan(15, [15]))
    ensures CalculateDuration(Haircut, "THIN", "SHORT") == None
  {
  }
}

=== FILE: clock.dfy ===
/**
 Times of day at minute resolution: the values held by the `TimeField`s of a
 work day and its appointments, the `%H:%M` rendering used in the replies of
 the slot search, and the `strptime('%H:%M')` parsing of the confirmation.
 */
module Clock {
  import opened Wrappers

  const MinutesPerDay: nat := 1440

  /** A wall-clock time, as minutes since midnight. */
  type Minute = m: int | 0 <= m < MinutesPerDay

  /** `datetime.time()`: the time of day of the instant `m` minutes after the
      midnight that starts the booking date (later days wrap around). */
  function ClockOf(m: nat): (t: Minute)
    ensures m < MinutesPerDay ==> t == m
    ensures (m - t) % MinutesPerDay == 0
  {
    m % MinutesPerDay
  }

  predicate IsDigit(c: char) {
    '0' <= c <= '9'
  }

  function DigitValue(c: char): (d: nat)
    requires IsDigit(c)
    ensures d < 10
  {
    c as int - '0' as int
  }

  function DigitChar(d: nat): (c: char)
    requires d < 10
    ensures IsDigit(c) && DigitValue(c) == d
  {
    ('0' as int + d) as char
  }

  /** A zero-padded two-digit field, as `%H` and `%M` print it. */
  function TwoDigits(n: nat): (s: string)
    requires n < 100
    ensures |s| == 2 && IsDigit(s[0]) && IsDigit(s[1])
    ensures 10 * DigitValue(s[0]) + DigitValue(s[1]) == n
    ensures AllDigits(s) && Value(s) == n
  {
    var s := [DigitChar(n / 10), DigitChar(n % 10)];
    ValueOfShort(s);
    s
  }

  predicate AllDigits(t: string) {
    forall i :: 0 <= i < |t| ==> IsDigit(t[i])
  }

  /** The decimal value of a string of digits. */
  function Value(t: string): nat
    requires AllDigits(t)
  {
    if t == [] then 0 else 10 * Value(t[..|t| - 1]) + DigitValue(t[|t| - 1])
  }

  /** The value of a one- or two-digit string. */
  lemma {:induction false} ValueOfShort(t: string)
    ensures |t| == 1 && AllDigits(t) ==> Value(t) == DigitValue(t[0])
    ensures |t| == 2 && AllDigits(t) ==> Value(t) == 10 * DigitValue(t[0]) + DigitValue(t[1])
  {
    if |t| == 2 && AllDigits(t) {
      var h := t[..1];
      assert AllDigits(h) && h[0] == t[0] && h[..0] == [];
      assert Value(h) == DigitValue(t[0]);
    } else if |t| == 1 && AllDigits(t) {
      assert t[..0] == [];
    }
  }

  /** What `strptime` accepts for one numeric field: one or two digits whose
      value is at most `max`. */
  predicate Field(t: string, max: nat) {
    1 <= |t| <= 2 && AllDigits(t) && Value(t) <= max
  }

  /** `strftime('%H:%M')`: two-digit hours and minutes around a colon, which
      denote `t`. */
  function FormatHM(t: Minute): (s: string)
    ensures |s| == 5 && s[2] == ':'
    ensures Field(s[..2], 23) && Field(s[3..], 59)
    ensures 60 * Value(s[..2]) + Value(s[3..]) == t
  {
    TwoDigits(t / 60) + ":" + TwoDigits(t % 60)
  }

  /** One numeric field of `strptime`: `%H` matches `2[0-3]|[0-1]\d|\d` and
      `%M` matches `[0-5]\d|\d`, i.e. one or two digits whose value is at most
      `max`. */
  function ParseField(t: string, max: nat): (r: Option<nat>)
    ensures r.Some? <==> Field(t, max)
    ensures r.Some? ==> r.value == Value(t)
  {
    ValueOfShort(t);
    if |t| == 1 && IsDigit(t[0]) && DigitValue(t[0]) <= max then
      Some(DigitValue(t[0]))
    else if |t| == 2 && IsDigit(t[0]) && IsDigit(t[1])
         && 10 * DigitValue(t[0]) + DigitValue(t[1]) <= max then
      Some(10 * DigitValue(t[0]) + DigitValue(t[1]))
    else
      None
  }

  function Combine(h: Option<nat>, m: Option<nat>): (r: Option<Minute>)
    ensures r.Some? <==> h.Some? && m.Some? && h.value <= 23 && m.value <= 59
    ensures r.Some? ==> r.value == 60 * h.value + m.value
  {
    if h.Some? && m.Some? && h.value <= 23 && m.value <= 59 then Some(60 * h.value + m.value) else None
  }

  /** `datetime.strptime(s, '%H:%M').time()`, `None` where it raises
      `ValueError`. The hour field is one digit exactly when the colon is the
      second character, so at most one split of `s` can succeed. */
  function ParseHM(s: string): (r: Option<Minute>)
    ensures r.Some? <==> || (|s| >= 2 && s[1] == ':' && Field(s[..1], 23) && Field(s[2..], 59))
                         || (|s| >= 3 && s[2] == ':' && Field(s[..2], 23) && Field(s[3..], 59))
    ensures r.Some? && s[1] == ':' ==> r.value == 60 * Value(s[..1]) + Value(s[2..])
    ensures r.Some? && s[1] != ':' ==> r.value == 60 * Value(s[..2]) + Value(s[3..])
    ensures r.Some? ==> 3 <= |s| <= 5
  {
    if |s| >= 2 && s[1] == ':' then
      Combine(ParseField(s[..1], 23), ParseField(s[2..], 59))
    else if |s| >= 3 && s[2] == ':' then
      Combine(ParseField(s[..2], 23), ParseField(s[3..], 59))
    else
      None
  }

  /** Parsing the rendering of a time of day gives that time back. */
  lemma {:induction false} ParseFormat(t: Minute)
    ensures ParseHM(FormatHM(t)) == Some(t)
  {
  }

  lemma {:induction false} DivMod10(q: nat, r: nat)
    requires r < 10
    ensures (10 * q + r) / 10 == q && (10 * q + r) % 10 == r
  {
  }

  lemma {:induction false} DivMod60(q: nat, r: nat)
    requires r < 60
    ensures (60 * q + r) / 60 == q && (60 * q + r) % 60 == r
  {
  }

  /** A two-digit field is the zero-padded rendering of its value. */
  lemma {:induction false} TwoDigitsOf(f: string)
    requires |f| == 2 && IsDigit(f[0]) && IsDigit(f[1])
    ensures TwoDigits(10 * DigitValue(f[0]) + DigitValue(f[1])) == f
  {
    DivMod10(DigitValue(f[0]), DigitValue(f[1]));
  }

  /** Conversely, a five-character string that parses is the rendering of the
      time it parses to: `%H:%M` rendering is canonical. */
  lemma {:induction false} FormatParse(s: string, t: Minute)
    requires |s| == 5 && ParseHM(s) == Some(t)
    ensures FormatHM(t) == s
  {
    assert s[1] != ':';
    var hh, mm := s[..2], s[3..];
    var h := 10 * DigitValue(hh[0]) + DigitValue(hh[1]);
    var m := 10 * DigitValue(mm[0]) + DigitValue(mm[1]);
    assert ParseField(hh, 23) == Some(h);
    assert ParseField(mm, 59) == Some(m);
    assert t == 60 * h + m;
    DivMod60(h, m);
    TwoDigitsOf(hh);
    TwoDigitsOf(mm);
    assert s == hh + ":" + mm;
  }
}

=== FILE: day_handlers.dfy ===
/**
 The pure parts of the booking conversation: the procedure registry, the
 normalisation of the booking-mode marker, the choice of whose hair
 attributes a search uses, the decoding of procedure names carried in
 button data, and the parsing of the chosen start time and flag.
 */
module DayHandlers {
  import opened Wrappers
  import opened Clock
  import Text
  import opened Catalog
  import opened Schedule
  import opened Partitions

  /* ---------------------------------------------------------------------
     Registry
     --------------------------------------------------------------------- */

  /** `procedure_classes`, in insertion order; the hair check is commented
      out there and absent here. */
  const Registry: seq<(string, Procedure)> := [
    ("Haircut", Haircut),
    ("Simple Color", SimpleColor),
    ("Complex Color", ComplexColor),
    ("Botox", Botox),
    ("Keratin", Keratin),
    ("Laying", Laying),
    ("Curls", Curls),
    ("Hairstyle", Hairstyle),
    ("Hair ext full", HairExtensionsFull),
    ("Hair ext temple", HairExtensionsTemple),
    ("Highlights", Highlights)
  ]

  /** `list(procedure_classes.values())`. */
  function Values(entries: seq<(string, Procedure)>): (r: seq<Procedure>)
    ensures |r| == |entries|
    ensures forall i :: 0 <= i < |entries| ==> r[i] == entries[i].1
  {
    if entries == [] then [] else [entries[0].1] + Values(entries[1..])
  }

  /** Dictionary lookup; `None` where `procedure_classes[name]` raises
      `KeyError`. */
  function LookupIn(entries: seq<(string, Procedure)>, name: string): (r: Option<Procedure>)
    ensures r.Some? <==> exists i :: 0 <= i < |entries| && entries[i].0 == name
    ensures r.Some? ==> exists i :: 0 <= i < |entries| && entries[i] == (name, r.value)
                          && forall j :: 0 <= j < i ==> entries[j].0 != name
  {
    if entries == [] then None
    else if entries[0].0 == name then Some(entries[0].1)
    else
      var r := LookupIn(entries[1..], name);
      if r.Some? then
        var i :| 0 <= i < |entries[1..]| && entries[1..][i] == (name, r.value)
                 && forall j :: 0 <= j < i ==> entries[1..][j].0 != name;
        assert entries[i + 1] == (name, r.value);
        r
      else
        assert forall i :: 0 < i < |entries| ==> entries[i].0 == entries[1..][i - 1].0;
        r
  }

  function LookupProcedure(name: string): Option<Procedure> {
    LookupIn(Registry, name)
  }

  /** Every key is its procedure's English name. */
  lemma RegistryKeys()
    ensures forall i :: 0 <= i < |Registry| ==> Registry[i].0 == Registry[i].1.nameEng
  {
  }

  /** No two entries share a key. */
  lemma RegistryDistinct()
    ensures forall i, j :: 0 <= i < j < |Registry| ==> Registry[i].0 != Registry[j].0
  {
  }

  /** The registry lists the catalogue in order, leaving out the hair check,
      which therefore cannot be booked. */
  lemma RegistryFollowsCatalog()
    ensures AllProcedures[10] == HairCheck
    ensures forall i :: 0 <= i < |Registry| ==> Registry[i].1 == AllProcedures[if i < 10 then i else i + 1]
  {
  }

  lemma RegistryOmitsHairCheck()
    ensures HairCheck !in Values(Registry)
    ensures LookupProcedure(HairCheck.nameEng) == None
  {
    RegistryKeys();
    assert forall i :: 0 <= i < |Registry| ==> Registry[i].1.nameEng != HairCheck.nameEng;
  }

  /* ---------------------------------------------------------------------
     Booking mode
     --------------------------------------------------------------------- */

  /** The marker a client booking for themselves carries: neither of the
      administrator's two modes. */
  predicate IsOneWay(sw: string) {
    sw == "ONEWAY#" || sw == "True#"
  }

  predicate IsMultipleWay(sw: string) {
    sw == "MULTIPLEWAY#" || sw == "False#"
  }

  /** `get_procedures`: the administrator's modes are rewritten to `True#` or
      `False#` and see every registered procedure; any other marker is kept
      and loses the last registered procedure. */
  function NormaliseSelectWay(sw: string): (r: (string, seq<Procedure>))
    ensures IsOneWay(sw) ==> r.0 == "True#"
    ensures IsMultipleWay(sw) ==> r.0 == "False#"
    ensures !IsOneWay(sw) && !IsMultipleWay(sw) ==> r.0 == sw
    ensures IsOneWay(sw) || IsMultipleWay(sw) ==> r.1 == Values(Registry)
    ensures !IsOneWay(sw) && !IsMultipleWay(sw) ==> r.1 == Values(Registry)[..|Registry| - 1]
  {
    if IsOneWay(sw) then ("True#", Values(Registry))
    else if IsMultipleWay(sw) then ("False#", Values(Registry))
    else (sw, Values(Registry)[..|Registry| - 1])
  }

  /** The shortened list is the one without the highlights. */
  lemma ShortListOmitsHighlights()
    ensures Values(Registry)[|Registry| - 1] == Highlights
    ensures Highlights !in Values(Registry)[..|Registry| - 1]
  {
    RegistryKeys();
    assert forall i :: 0 <= i < |Registry| - 1 ==> Registry[i].1.nameEng != Highlights.nameEng;
  }

  /** Normalising an already normalised marker changes nothing. */
  lemma NormaliseIdempotent(sw: string)
    ensures NormaliseSelectWay(NormaliseSelectWay(sw).0) == NormaliseSelectWay(sw)
  {
  }

  /** The fixed user ids the two administrator modes search on behalf of. */
  const OneWayUserId: int := 111
  const MultipleWayUserId: int := 222

  /** The user id `get_procedure_info` looks up for the search. */
  function RequesterId(selectWay: string, callerId: int): (id: int)
    ensures selectWay == "True#" ==> id == OneWayUserId
    ensures selectWay == "False#" ==> id == MultipleWayUserId
    ensures selectWay != "True#" && selectWay != "False#" ==> id == callerId
  {
    if selectWay == "True#" then OneWayUserId
    else if selectWay == "False#" then MultipleWayUserId
    else callerId
  }

  /** After normalisation, both spellings of a mode book on behalf of that
      mode's account, and a client's own marker books for the client. */
  lemma {:induction false} ModeSelectsRequester(sw: string, callerId: int)
    ensures var id := RequesterId(NormaliseSelectWay(sw).0, callerId);
            && (IsOneWay(sw) ==> id == OneWayUserId)
            && (IsMultipleWay(sw) ==> id == MultipleWayUserId)
            && (!IsOneWay(sw) && !IsMultipleWay(sw) ==> id == callerId)
  {
  }

  /** `User.objects.get(user_id=id)`; `None` where it raises
      `DoesNotExist`. */
  function FindUser(users: seq<User>, id: int): (r: Option<User>)
    ensures r.Some? <==> exists i :: 0 <= i < |users| && users[i].userId == id
    ensures r.Some? ==> r.value in users && r.value.userId == id
  {
    if users == [] then None
    else if users[0].userId == id then Some(users[0])
    else
      var r := FindUser(users[1..], id);
      assert forall i :: 0 < i < |users| ==> users[i] == users[1..][i - 1];
      r
  }

  /* ---------------------------------------------------------------------
     Procedure names in button data
     --------------------------------------------------------------------- */

  /** `' '.join(name.split('_'))`. */
  function DecodeProcedureName(s: string): (r: string)
    ensures r == Text.ReplaceChar(s, '_', ' ')
  {
    Text.JoinSplit(s, '_', ' ');
    Text.Join(Text.Split(s, '_'), ' ')
  }

  /** Decoding undoes `get_underline_name` for a name with no underscore. */
  lemma DecodeUnderline(p: Procedure)
    requires forall i :: 0 <= i < |p.nameEng| ==> p.nameEng[i] != '_'
    ensures DecodeProcedureName(UnderlineName(p)) == p.nameEng
  {
    Text.ReplaceBack(p.nameEng, ' ', '_');
  }

  /** A procedure button always leads back to the procedure it was made
      for. */
  lemma {:induction false} ButtonsResolve(i: nat)
    requires i < |Registry|
    ensures LookupProcedure(DecodeProcedureName(UnderlineName(Registry[i].1))) == Some(Registry[i].1)
  {
    RegistryKeys();
    RegistryDistinct();
    var p := Registry[i].1;
    assert forall k :: 0 <= k < |p.nameEng| ==> p.nameEng[k] != '_';
    DecodeUnderline(p);
    var r := LookupProcedure(p.nameEng);
    assert r.Some?;
    var j :| 0 <= j < |Registry| && Registry[j] == (p.nameEng, r.value);
    assert i == j;
  }

  /* ---------------------------------------------------------------------
     Stages, start time and flag
     --------------------------------------------------------------------- */

  /** `get_procedure_stages`: the requester's length and density, in that
      order, fed to `calculate_duration`. */
  function GetProcedureStages(p: Procedure, user: User): (r: Option<Plan>)
    ensures p.duration.Fixed? ==> r == Some(Plan(p.duration.minutes, [p.duration.minutes]))
    ensures !p.duration.Fixed? ==>
              (r.Some? <==> LengthKey(user.hairLength).Some? && DensityKey(user.hairDensity).Some?)
    ensures PositiveDurations(p) && r.Some? ==> ValidPlan(r.value)
    ensures r.Some? && p.duration.ByTable? ==>
              r.value.stages == [p.duration.table.At(DensityKey(user.hairDensity).value,
                                                     LengthKey(user.hairLength).value)]
  {
    CalculateDuration(p, user.hairLength, user.hairDensity)
  }

  /** Python's `str(b)`. */
  function BoolText(b: bool): string {
    if b then "True" else "False"
  }

  /** The `delete_current_appointment` flag of `notify_registration`: false
      only for the exact text `False`. */
  function ParseFlag(s: string): (b: bool)
    ensures !b <==> s == "False"
  {
    s != "False"
  }

  lemma FlagRoundTrip(b: bool)
    ensures ParseFlag(BoolText(b)) == b
  {
  }

  /** The start time of `notify_registration`; `None` where `strptime`
      raises `ValueError`. */
  function ParseStartTime(s: string): (r: Option<Minute>)
    ensures forall t: Minute :: s == FormatHM(t) ==> r == Some(t)
    ensures r.Some? && |s| == 5 ==> FormatHM(r.value) == s
    ensures r.Some? ==> 3 <= |s| <= 5
  {
    forall t: Minute | s == FormatHM(t) ensures ParseHM(s) == Some(t) {
      ParseFormat(t);
    }
    var r := ParseHM(s);
    if r.Some? && |s| == 5 then
      FormatParse(s, r.value);
      r
    else
      r
  }

  /** An offer shown to the requester, sent back through the confirmation
      buttons unchanged, commits: its start time parses to the offered slot's
      start, exactly one slot of the day starts there, and the flag arrives as
      it was offered. */
  lemma {:induction false} OfferCommits(day: WorkDay, plan: Plan, requester: User, name: string)
    requires Ready(day)
    requires GetAvailableTimeSlot(day, plan, requester).1.Offer?
    ensures var r := GetAvailableTimeSlot(day, plan, requester);
            && ParseStartTime(r.1.startTime).Some?
            && MakeAppointment(r.0, requester, plan.stages,
                               ParseFlag(BoolText(r.1.deleteCurrentAppointment)),
                               ParseStartTime(r.1.startTime).value, name).Success?
  {
    var r := GetAvailableTimeSlot(day, plan, requester);
    var seeded := r.0;
    var a :| OfferedAt(seeded, r.1, a, requester, plan.total);
    assert r.1.startTime == FormatHM(a.start);
    assert ParseStartTime(r.1.startTime) == Some(a.start);
    assert CountStartingAt(seeded.appointments, a.start) == 1 by {
      SeedPartition(day);
      PartitionUniqueStarts(seeded);
      UniqueLookup(seeded.appointments, a);
    }
  }
}

=== FILE: partition.dfy ===
/**
 The partition invariant of a work day: its slots lie within the working
 hours, are non-empty and pairwise disjoint, and their lengths add up to the
 length of the working day, so together they cover it exactly. Seeding
 establishes it; a commit that hands back only the consumed slot's time keeps
 it; the commit as written keeps it only when the consumed slot ended at the
 end of the working day.
 */
module Partitions {
  import opened Wrappers
  import opened Clock
  import opened Catalog
  import opened Schedule

  predicate Disjoint(a: Appointment, b: Appointment) {
    a.end <= b.start || b.end <= a.start
  }

  /** Total booked-or-free time of a slot list. */
  function TotalSpan(s: seq<Appointment>): int {
    if s == [] then 0 else Span(s[0]) + TotalSpan(s[1..])
  }

  /** Every slot of `s` is non-empty and lies between `lo` and `hi`. */
  ghost predicate Within(s: seq<Appointment>, lo: int, hi: int) {
    forall i :: 0 <= i < |s| ==> lo <= s[i].start < s[i].end <= hi
  }

  ghost predicate PairwiseDisjoint(s: seq<Appointment>) {
    forall i, j :: 0 <= i < j < |s| ==> Disjoint(s[i], s[j])
  }

  ghost predicate Partition(day: WorkDay) {
    var s := day.appointments;
    && Within(s, day.workStart, day.workEnd)
    && PairwiseDisjoint(s)
    && TotalSpan(s) == day.workEnd - day.workStart
  }

  /** A day the allocator can work on: non-empty working hours, and either not
      yet seeded or already partitioned. */
  ghost predicate Ready(day: WorkDay) {
    day.workStart < day.workEnd && (|day.appointments| == 0 || Partition(day))
  }

  /** `n` fills slot `c` exactly: non-empty, disjoint slots inside `c` whose
      lengths add up to the length of `c`. */
  ghost predicate Fills(n: seq<Appointment>, c: Appointment) {
    && Within(n, c.start, c.end)
    && PairwiseDisjoint(n)
    && TotalSpan(n) == Span(c)
  }

  lemma {:induction false} TotalSpanAppend(a: seq<Appointment>, b: seq<Appointment>)
    ensures TotalSpan(a + b) == TotalSpan(a) + TotalSpan(b)
  {
    if a == [] {
      assert a + b == b;
    } else {
      TotalSpanAppend(a[1..], b);
      assert (a + b)[1..] == a[1..] + b;
    }
  }

  lemma {:induction false} TotalSpanRemove(s: seq<Appointment>, k: nat)
    requires k < |s|
    ensures TotalSpan(s[..k] + s[k + 1..]) == TotalSpan(s) - Span(s[k])
  {
    var a, b := s[..k], s[k + 1..];
    TotalSpanAppend(a, b);
    assert s == a + ([s[k]] + b);
    TotalSpanAppend(a, [s[k]] + b);
    assert TotalSpan([s[k]] + b) == Span(s[k]) + TotalSpan(b) by {
      assert ([s[k]] + b)[1..] == b;
    }
  }

  /** Seeding a fresh day partitions it. */
  lemma {:induction false} SeedPartition(day: WorkDay)
    requires Ready(day)
    ensures Partition(GetOrCreateAppointmentsSlots(day).0)
  {
    var seeded := GetOrCreateAppointmentsSlots(day).0;
    if |day.appointments| == 0 {
      assert seeded.appointments[1..] == [];
    }
  }

  /** Replacing one slot of a partitioned day by slots that fill it keeps the
      day partitioned. */
  lemma {:induction false} ReplaceKeepsPartition(day: WorkDay, k: nat, n: seq<Appointment>, after: WorkDay)
    requires Partition(day)
    requires k < |day.appointments|
    requires Fills(n, day.appointments[k])
    requires after == day.(appointments := day.appointments[..k] + day.appointments[k + 1..] + n)
    ensures Partition(after)
  {
    var s := day.appointments;
    var kept := s[..k] + s[k + 1..];
    RemoveOne(s, k, day.workStart, day.workEnd);
    AppendFilling(kept, n, s[k], day.workStart, day.workEnd);
    TotalSpanRemove(s, k);
    TotalSpanAppend(kept, n);
  }

  /** Removing slot `k` keeps the others in place and disjoint, and each of
      them is disjoint from the removed one. */
  lemma {:induction false} RemoveOne(s: seq<Appointment>, k: nat, lo: int, hi: int)
    requires Within(s, lo, hi) && PairwiseDisjoint(s)
    requires k < |s|
    ensures var kept := s[..k] + s[k + 1..];
            && Within(kept, lo, hi)
            && PairwiseDisjoint(kept)
            && forall i :: 0 <= i < |kept| ==> Disjoint(kept[i], s[k])
  {
    var kept := s[..k] + s[k + 1..];
    assert forall i :: 0 <= i < |kept| ==> kept[i] == s[if i < k then i else i + 1];
    forall i, j | 0 <= i < j < |kept|
      ensures Disjoint(kept[i], kept[j])
    {
      var i', j' := if i < k then i else i + 1, if j < k then j else j + 1;
      assert kept[i] == s[i'] && kept[j] == s[j'] && i' < j';
    }
    forall i | 0 <= i < |kept|
      ensures Disjoint(kept[i], s[k])
    {
      var i' := if i < k then i else i + 1;
      if i' < k {
        assert Disjoint(s[i'], s[k]);
      } else {
        assert Disjoint(s[k], s[i']);
      }
    }
  }

  /** Slots that fill a slot `c` disjoint from all of `kept` can be appended
      to `kept` without overlap. */
  lemma {:induction false} AppendFilling(kept: seq<Appointment>, n: seq<Appointment>, c: Appointment, lo: int, hi: int)
    requires Within(kept, lo, hi) && PairwiseDisjoint(kept)
    requires forall i :: 0 <= i < |kept| ==> Disjoint(kept[i], c)
    requires Within(n, c.start, c.end) && PairwiseDisjoint(n)
    requires lo <= c.start && c.end <= hi
    ensures Within(kept + n, lo, hi) && PairwiseDisjoint(kept + n)
  {
    var r := kept + n;
    forall i, j | 0 <= i < j < |r|
      ensures Disjoint(r[i], r[j])
    {
      if j < |kept| {
        assert r[i] == kept[i] && r[j] == kept[j];
      } else if i < |kept| {
        assert r[i] == kept[i] && r[j] == n[j - |kept|];
      } else {
        assert r[i] == n[i - |kept|] && r[j] == n[j - |kept|];
      }
    }
    forall i | 0 <= i < |r|
      ensures lo <= r[i].start < r[i].end <= hi
    {
      if i < |kept| {
        assert r[i] == kept[i];
      } else {
        assert r[i] == n[i - |kept|];
      }
    }
  }

  /** In a partitioned day no two slots start at the same time. */
  lemma {:induction false} PartitionUniqueStarts(day: WorkDay)
    requires Partition(day)
    ensures forall i, j :: 0 <= i < j < |day.appointments| ==>
              day.appointments[i].start != day.appointments[j].start
  {
    var s := day.appointments;
    forall i, j | 0 <= i < j < |s| ensures s[i].start != s[j].start {
      assert Disjoint(s[i], s[j]);
    }
  }

  lemma {:induction false} CountZero(s: seq<Appointment>, t: Minute)
    requires forall j :: 0 <= j < |s| ==> s[j].start != t
    ensures CountStartingAt(s, t) == 0
  {
    if s != [] {
      CountZero(s[1..], t);
    }
  }

  /** With distinct start times, the lookup by start time finds exactly the
      slot it is given. */
  lemma {:induction false} UniqueLookup(s: seq<Appointment>, a: Appointment)
    requires forall i, j :: 0 <= i < j < |s| ==> s[i].start != s[j].start
    requires a in s
    ensures CountStartingAt(s, a.start) == 1
    ensures s[IndexStartingAt(s, a.start)] == a
  {
    if s[0] == a {
      CountZero(s[1..], a.start);
    } else {
      var j :| 0 <= j < |s| && s[j] == a;
      assert j > 0 && s[0].start != a.start;
      assert s[1..][j - 1] == a;
      UniqueLookup(s[1..], a);
    }
  }

  lemma {:induction false} SumAppend(a: seq<nat>, b: seq<nat>)
    ensures Sum(a + b) == Sum(a) + Sum(b)
  {
    if a == [] {
      assert a + b == b;
    } else {
      SumAppend(a[1..], b);
      assert (a + b)[1..] == a[1..] + b;
    }
  }

  /** Prefix sums grow with the prefix, strictly by each stage. */
  lemma {:induction false} PrefixSums(s: seq<nat>, i: nat, j: nat)
    requires i <= j <= |s|
    ensures Sum(s[..i]) <= Sum(s[..j])
    ensures i < |s| ==> Sum(s[..i + 1]) == Sum(s[..i]) + s[i]
  {
    assert s[..j] == s[..i] + s[i..j];
    SumAppend(s[..i], s[i..j]);
    if i < |s| {
      assert s[..i + 1] == s[..i] + [s[i]];
      SumAppend(s[..i], [s[i]]);
      assert [s[i]][1..] == [];
    }
  }

  /** Without wrap-around the stages add up to their durations. */
  lemma {:induction false} StageSlotsSpan(user: User, stages: seq<nat>, cursor: nat, index: nat, name: string)
    requires cursor + Sum(stages) < MinutesPerDay
    decreases |stages|
    ensures TotalSpan(StageSlots(user, stages, cursor, index, name)) == Sum(stages)
  {
    if stages != [] {
      var n := StageSlots(user, stages, cursor, index, name);
      StageSlotsSpan(user, stages[1..], cursor + stages[0], index + 1, name);
      assert n[1..] == StageSlots(user, stages[1..], cursor + stages[0], index + 1, name);
    }
  }

  /** Without wrap-around stage `i` covers the minutes from `start` plus the
      first `i` durations to `start` plus the first `i + 1`. */
  lemma {:induction false} StagesInside(user: User, stages: seq<nat>, start: Minute, name: string)
    requires forall i :: 0 <= i < |stages| ==> stages[i] > 0
    requires start + Sum(stages) < MinutesPerDay
    ensures var st := StageSlots(user, stages, start, 1, name);
            forall i :: 0 <= i < |st| ==>
              && st[i].start == start + Sum(stages[..i])
              && st[i].end == start + Sum(stages[..i + 1])
              && start <= st[i].start < st[i].end <= start + Sum(stages)
  {
    var st := StageSlots(user, stages, start, 1, name);
    StageLayout(user, stages, start, 1, name);
    assert stages[..|stages|] == stages;
    forall i | 0 <= i < |st|
      ensures st[i].start == start + Sum(stages[..i])
      ensures st[i].end == start + Sum(stages[..i + 1])
      ensures start <= st[i].start < st[i].end <= start + Sum(stages)
    {
      PrefixSums(stages, i, |stages|);
      PrefixSums(stages, i + 1, |stages|);
    }
  }

  lemma {:induction false} StagesDisjoint(user: User, stages: seq<nat>, start: Minute, name: string)
    requires forall i :: 0 <= i < |stages| ==> stages[i] > 0
    requires start + Sum(stages) < MinutesPerDay
    ensures var st := StageSlots(user, stages, start, 1, name);
            forall i, j :: 0 <= i < j < |st| ==> Disjoint(st[i], st[j])
  {
    var st := StageSlots(user, stages, start, 1, name);
    StagesInside(user, stages, start, name);
    forall i, j | 0 <= i < j < |st| ensures Disjoint(st[i], st[j]) {
      PrefixSums(stages, i + 1, j);
    }
  }

  /** The stages, laid from the start of `c`, are non-empty, disjoint, inside
      `c` up to the sum of their durations, and add up to that sum. */
  lemma {:induction false} StagesFillUpTo(user: User, stages: seq<nat>, c: Appointment, name: string)
    requires forall i :: 0 <= i < |stages| ==> stages[i] > 0
    requires c.start + Sum(stages) < MinutesPerDay
    ensures var st := StageSlots(user, stages, c.start, 1, name);
            && Within(st, c.start, c.start + Sum(stages))
            && PairwiseDisjoint(st)
            && TotalSpan(st) == Sum(stages)
  {
    StagesInside(user, stages, c.start, name);
    StagesDisjoint(user, stages, c.start, name);
    StageSlotsSpan(user, stages, c.start, 1, name);
  }

  /** Slots filling `c` up to `finish`, followed by one slot from `finish` to
      the end of `c`, fill `c`. */
  lemma {:induction false} AppendTail(st: seq<Appointment>, tail: Appointment, c: Appointment, finish: int)
    requires Within(st, c.start, finish) && PairwiseDisjoint(st)
    requires TotalSpan(st) == finish - c.start
    requires tail.start == finish < tail.end == c.end
    ensures Fills(st + [tail], c)
  {
    var n := st + [tail];
    forall i | 0 <= i < |n| ensures c.start <= n[i].start < n[i].end <= c.end {
      if i < |st| {
        assert n[i] == st[i];
      }
    }
    forall i, j | 0 <= i < j < |n| ensures Disjoint(n[i], n[j]) {
      assert n[i] == st[i];
      if j < |st| {
        assert n[j] == st[j];
      }
    }
    assert TotalSpan([tail]) == Span(tail) by {
      assert [tail][1..] == [];
    }
    TotalSpanAppend(st, [tail]);
  }

  lemma {:induction false} NewSlotsShape(user: User, stages: seq<nat>, start: Minute, name: string, exact: bool, tailEnd: Minute)
    ensures exact ==> NewSlots(user, stages, start, name, exact, tailEnd) == StageSlots(user, stages, start, 1, name)
    ensures !exact ==> NewSlots(user, stages, start, name, exact, tailEnd)
                         == StageSlots(user, stages, start, 1, name) + [FreeSlot(ClockOf(start + Sum(stages)), tailEnd)]
  {
  }

  /** The slots a commit lays into the chosen slot `c` fill it, provided the
      stages fit and the exact flag says whether they use it all: the stages
      alone when exact, the stages and the trailing free slot otherwise. */
  lemma {:induction false} LayoutFills(user: User, stages: seq<nat>, c: Appointment, exact: bool, name: string)
    requires forall i :: 0 <= i < |stages| ==> stages[i] > 0
    requires c.start + Sum(stages) <= c.end
    requires exact <==> c.start + Sum(stages) == c.end
    ensures exact ==> Fills(StageSlots(user, stages, c.start, 1, name), c)
    ensures !exact ==> Fills(StageSlots(user, stages, c.start, 1, name)
                               + [FreeSlot(ClockOf(c.start + Sum(stages)), c.end)], c)
  {
    var st := StageSlots(user, stages, c.start, 1, name);
    var finish := c.start + Sum(stages);
    StagesFillUpTo(user, stages, c, name);
    if !exact {
      AppendTail(st, FreeSlot(ClockOf(finish), c.end), c, finish);
    }
  }

  /** The slots a commit adds fill the slot they are laid into. */
  lemma {:induction false} NewSlotsFill(user: User, stages: seq<nat>, c: Appointment, exact: bool, name: string, n: seq<Appointment>)
    requires forall i :: 0 <= i < |stages| ==> stages[i] > 0
    requires c.start + Sum(stages) <= c.end
    requires exact <==> c.start + Sum(stages) == c.end
    requires n == NewSlots(user, stages, c.start, name, exact, c.end)
    ensures Fills(n, c)
  {
    LayoutFills(user, stages, c, exact, name);
    NewSlotsShape(user, stages, c.start, name, exact, c.end);
    if exact {
      assert n == StageSlots(user, stages, c.start, 1, name);
    } else {
      assert n == StageSlots(user, stages, c.start, 1, name) + [FreeSlot(ClockOf(c.start + Sum(stages)), c.end)];
    }
  }

  /** The successful commit replaces the looked-up slot by the new slots. */
  lemma {:induction false} CommitShape(day: WorkDay, user: User, stages: seq<nat>, deleteCurrent: bool,
                    start: Minute, name: string, tailEnd: Minute)
    requires CountStartingAt(day.appointments, start) == 1
    ensures var s, k := day.appointments, IndexStartingAt(day.appointments, start);
            Commit(day, user, stages, deleteCurrent, start, name, tailEnd)
              == day.(appointments := s[..k] + s[k + 1..] + NewSlots(user, stages, start, name, deleteCurrent, tailEnd))
  {
  }

  /** One booking as the allocator is meant to make it: seed, search, and
      commit the fit with the reclaiming commit. The reported fit is the
      search's when the commit succeeds; otherwise nothing beyond the seeding
      happens. */
  function Book(day: WorkDay, requester: User, plan: Plan, name: string): (r: (WorkDay, Option<Fit>))
    ensures r.0 == day.(appointments := r.0.appointments)
    ensures r.1.Some? ==> r.1 == FindFit(GetOrCreateAppointmentsSlots(day).1, requester, plan.total)
    ensures r.1.None? ==> r.0 == GetOrCreateAppointmentsSlots(day).0
  {
    var seeded := GetOrCreateAppointmentsSlots(day).0;
    var fit := FindFit(GetOrCreateAppointmentsSlots(day).1, requester, plan.total);
    if fit.None? then (seeded, None)
    else
      match MakeAppointmentReclaiming(seeded, requester, plan.stages, fit.value.exact, fit.value.slot.start, name)
      case Success(after) => (after, fit)
      case Failure(_) => (seeded, None)
  }

  /** A commit into slot `c` of a partitioned day, whose trailing free slot
      ends where `c` ended, keeps the day partitioned. */
  lemma {:induction false} CommitKeepsPartition(day: WorkDay, user: User, stages: seq<nat>, exact: bool,
                             c: Appointment, name: string, after: WorkDay)
    requires Partition(day)
    requires c in day.appointments
    requires forall i :: 0 <= i < |stages| ==> stages[i] > 0
    requires c.start + Sum(stages) <= c.end
    requires exact <==> c.start + Sum(stages) == c.end
    requires CountStartingAt(day.appointments, c.start) == 1
    requires after == Commit(day, user, stages, exact, c.start, name, c.end)
    ensures Partition(after)
  {
    var s := day.appointments;
    PartitionUniqueStarts(day);
    UniqueLookup(s, c);
    var k := IndexStartingAt(s, c.start);
    var n := NewSlots(user, stages, c.start, name, exact, c.end);
    NewSlotsFill(user, stages, c, exact, name, n);
    CommitShape(day, user, stages, exact, c.start, name, c.end);
    ReplaceKeepsPartition(day, k, n, after);
  }

  /** What a booking does: nothing when the search finds no slot, otherwise
      the reclaiming commit of the slot found, whose lookup succeeds. */
  lemma {:induction false} BookOutcome(day: WorkDay, requester: User, plan: Plan, name: string)
    requires Ready(day)
    ensures var seeded := GetOrCreateAppointmentsSlots(day).0;
            var fit := FindFit(GetOrCreateAppointmentsSlots(day).1, requester, plan.total);
            && (fit.None? ==> Book(day, requester, plan, name) == (seeded, None))
            && (fit.Some? ==>
                  && CountStartingAt(seeded.appointments, fit.value.slot.start) == 1
                  && Book(day, requester, plan, name)
                       == (Commit(seeded, requester, plan.stages, fit.value.exact, fit.value.slot.start, name,
                                  fit.value.slot.end), fit))
  {
    var fit := FindFit(GetOrCreateAppointmentsSlots(day).1, requester, plan.total);
    if fit.Some? {
      FoundSlotUnique(day, requester, plan.total);
    }
  }

  /** The slot the search finds is the only one of the seeded day starting
      at its start time. */
  lemma {:induction false} FoundSlotUnique(day: WorkDay, requester: User, total: nat)
    requires Ready(day)
    requires FindFit(GetOrCreateAppointmentsSlots(day).1, requester, total).Some?
    ensures var seeded := GetOrCreateAppointmentsSlots(day).0;
            var c := FindFit(GetOrCreateAppointmentsSlots(day).1, requester, total).value.slot;
            && CountStartingAt(seeded.appointments, c.start) == 1
            && ConsumedSlot(seeded, c.start) == c
  {
    var seeded := GetOrCreateAppointmentsSlots(day).0;
    var c := FindFit(GetOrCreateAppointmentsSlots(day).1, requester, total).value.slot;
    assert c in seeded.appointments;
    SeedPartition(day);
    PartitionUniqueStarts(seeded);
    UniqueLookup(seeded.appointments, c);
  }

  /** A booking keeps the day partitioned, and the commit of the slot the
      search found never fails its lookup. */
  lemma {:induction false} BookKeepsPartition(day: WorkDay, requester: User, plan: Plan, name: string)
    requires Ready(day)
    requires ValidPlan(plan)
    ensures Partition(Book(day, requester, plan, name).0)
    ensures Book(day, requester, plan, name).1 == FindFit(GetOrCreateAppointmentsSlots(day).1, requester, plan.total)
  {
    var seeded := GetOrCreateAppointmentsSlots(day).0;
    var fit := FindFit(GetOrCreateAppointmentsSlots(day).1, requester, plan.total);
    var after := Book(day, requester, plan, name).0;
    SeedPartition(day);
    BookOutcome(day, requester, plan, name);
    if fit.Some? {
      var c := fit.value.slot;
      assert c in seeded.appointments;
      CommitKeepsPartition(seeded, requester, plan.stages, fit.value.exact, c, name, after);
    }
  }

  /** The commit as written keeps the day partitioned when the slot it consumes
      ends at the end of the working day, since its trailing slot then ends
      where the consumed slot did. */
  lemma {:induction false} MakeAppointmentAtDayEnd(day: WorkDay, requester: User, plan: Plan, name: string)
    requires Ready(day)
    requires ValidPlan(plan)
    requires var fit := FindFit(GetOrCreateAppointmentsSlots(day).1, requester, plan.total);
             fit.Some? && fit.value.slot.end == day.workEnd
    ensures var seeded := GetOrCreateAppointmentsSlots(day).0;
            var fit := FindFit(GetOrCreateAppointmentsSlots(day).1, requester, plan.total).value;
            var r := MakeAppointment(seeded, requester, plan.stages, fit.exact, fit.slot.start, name);
            r.Success? && Partition(r.value)
  {
    var seeded := GetOrCreateAppointmentsSlots(day).0;
    var fit := FindFit(GetOrCreateAppointmentsSlots(day).1, requester, plan.total).value;
    var c := fit.slot;
    SeedPartition(day);
    PartitionUniqueStarts(seeded);
    UniqueLookup(seeded.appointments, c);
    assert ConsumedSlot(seeded, c.start) == c;
    BookKeepsPartition(day, requester, plan, name);
    assert MakeAppointment(seeded, requester, plan.stages, fit.exact, c.start, name)
        == MakeAppointmentReclaiming(seeded, requester, plan.stages, fit.exact, c.start, name);
  }

  datatype Request = Request(requester: User, plan: Plan, name: string)

  /** One booking leaves a partitioned day the allocator can work on. */
  lemma {:induction false} BookStep(day: WorkDay, q: Request, next: WorkDay)
    requires Ready(day) && ValidPlan(q.plan)
    requires next == Book(day, q.requester, q.plan, q.name).0
    ensures Ready(next) && Partition(next)
  {
    BookKeepsPartition(day, q.requester, q.plan, q.name);
  }

  /** The requests booked one after another; only the slot list changes. */
  function BookAll(day: WorkDay, requests: seq<Request>): (r: WorkDay)
    ensures r == day.(appointments := r.appointments)
    decreases |requests|
  {
    if requests == [] then day
    else BookAll(Book(day, requests[0].requester, requests[0].plan, requests[0].name).0, requests[1..])
  }

  /** Any sequence of bookings keeps the day partitioned: no two slots
      overlap and no time is created or lost. */
  lemma {:induction false} BookAllKeepsPartition(day: WorkDay, requests: seq<Request>)
    requires Ready(day)
    requires forall i :: 0 <= i < |requests| ==> ValidPlan(requests[i].plan)
    decreases |requests|
    ensures Ready(BookAll(day, requests))
    ensures |requests| > 0 ==> Partition(BookAll(day, requests))
  {
    if requests != [] {
      var q := requests[0];
      var next := Book(day, q.requester, q.plan, q.name).0;
      BookStep(day, q, next);
      assert forall i :: 0 <= i < |requests[1..]| ==> requests[1..][i] == requests[i + 1];
      BookAllKeepsPartition(next, requests[1..]);
      assert BookAll(day, requests) == BookAll(next, requests[1..]);
      if |requests| == 1 {
        assert BookAll(next, requests[1..]) == next;
      }
    }
  }
}

=== FILE: scenarios.dfy ===
/**
 Worked days: a client books a three-stage procedure on an empty day, and a
 second client is then fitted into the first client's wait.
 */
module Scenarios {
  import opened Wrappers
  import opened Clock
  import opened Catalog
  import opened Schedule
  import opened Partitions
  import opened DayHandlers

  const Anna := User(1, "Anna", "SHORT", "THIN")
  const Boris := User(2, "Boris", "SHORT", "THIN")

  /** A visible working day from 09:00 to 18:00 with no slots yet. */
  const EmptyDay := WorkDay(540, 1080, true, false, [])

  /** Botox for short thin hair: 15 minutes of work, a 60-minute wait, 10
      minutes of work. */
  const BotoxPlan := Plan(85, [15, 60, 10])

  const AnnaFirst := Appointment(540, 555, Some("Botox"), Some(Anna), false, false)
  const AnnaWait := Appointment(555, 615, None, Some(Anna), true, false)
  const AnnaLast := Appointment(615, 625, Some("Botox"), Some(Anna), false, false)
  const RestOfDay := FreeSlot(625, 1080)

  /** The day after Anna's Botox: her two busy stages, her wait left
      available, and the rest of the day free. */
  const AfterBotox := WorkDay(540, 1080, true, false, [AnnaFirst, AnnaWait, AnnaLast, RestOfDay])

  lemma {:induction false} BotoxStages()
    ensures GetProcedureStages(Botox, Anna) == Some(BotoxPlan)
  {
  }

  /** Anna's three stages from 09:00. */
  lemma {:induction false} BotoxLayout()
    ensures StageSlots(Anna, [15, 60, 10], 540, 1, "Botox") == [AnnaFirst, AnnaWait, AnnaLast]
  {
    var st := StageSlots(Anna, [15, 60, 10], 540, 1, "Botox");
    assert [15, 60, 10][1..] == [60, 10];
    assert [60, 10][1..] == [10];
    assert [10][1..] == [];
  }

  /** The empty day is seeded with one free slot covering the working hours. */
  lemma {:induction false} SeedEmptyDay()
    ensures GetOrCreateAppointmentsSlots(EmptyDay)
              == (EmptyDay.(appointments := [FreeSlot(540, 1080)]), [FreeSlot(540, 1080)])
  {
    assert [FreeSlot(540, 1080)][1..] == [];
    assert Available([FreeSlot(540, 1080)]) == [FreeSlot(540, 1080)];
  }

  /** Anna is offered 09:00, with time to spare. */
  lemma {:induction false} AnnaFits()
    ensures FindFit([FreeSlot(540, 1080)], Anna, 85) == Some(Fit(FreeSlot(540, 1080), false))
  {
    assert Qualifies(FreeSlot(540, 1080), Anna, 85);
  }

  /** Committing her Botox lays the three stages and frees the rest of the
      day. */
  lemma {:induction false} AnnaCommits()
    ensures MakeAppointmentReclaiming(EmptyDay.(appointments := [FreeSlot(540, 1080)]),
                                      Anna, [15, 60, 10], false, 540, "Botox") == Success(AfterBotox)
  {
    var seeded := EmptyDay.(appointments := [FreeSlot(540, 1080)]);
    assert CountStartingAt(seeded.appointments, 540) == 1;
    assert ConsumedSlot(seeded, 540) == FreeSlot(540, 1080);
    CommitShape(seeded, Anna, [15, 60, 10], false, 540, "Botox", 1080);
    NewSlotsShape(Anna, [15, 60, 10], 540, "Botox", false, 1080);
    BotoxLayout();
    assert Sum([15, 60, 10]) == 85;
    assert AfterBotox.appointments == [AnnaFirst, AnnaWait, AnnaLast] + [FreeSlot(625, 1080)];
  }

  /** Anna's Botox on the empty day: the whole day is seeded as one free slot,
      which she takes without using it up, and the day stays partitioned. */
  lemma {:induction false} AnnaBooksBotox()
    ensures Book(EmptyDay, Anna, BotoxPlan, "Botox") == (AfterBotox, Some(Fit(FreeSlot(540, 1080), false)))
    ensures Partition(AfterBotox)
  {
    SeedEmptyDay();
    AnnaFits();
    AnnaCommits();
    BookKeepsPartition(EmptyDay, Anna, BotoxPlan, "Botox");
  }

  // The list recursions on days of four and five slots, stated for any
  // slots so that the concrete days below only need instantiating them.

  function Keep(a: Appointment): seq<Appointment> {
    if a.available then [a] else []
  }

  lemma {:induction false} AvailableCons(x: Appointment, s: seq<Appointment>)
    ensures Available([x] + s) == Keep(x) + Available(s)
  {
    assert ([x] + s)[1..] == s;
  }

  lemma {:induction false} AvailableOfFour(a: Appointment, b: Appointment, c: Appointment, d: Appointment)
    ensures Available([a, b, c, d]) == Keep(a) + (Keep(b) + (Keep(c) + Keep(d)))
  {
    assert Available([d]) == Keep(d) by {
      AvailableCons(d, []);
    }
    assert Available([c, d]) == Keep(c) + Keep(d) by {
      assert [c, d] == [c] + [d];
      AvailableCons(c, [d]);
    }
    assert Available([b, c, d]) == Keep(b) + (Keep(c) + Keep(d)) by {
      assert [b, c, d] == [b] + [c, d];
      AvailableCons(b, [c, d]);
    }
    assert [a, b, c, d] == [a] + [b, c, d];
    AvailableCons(a, [b, c, d]);
  }

  lemma {:induction false} AvailableOfFive(a: Appointment, b: Appointment, c: Appointment, d: Appointment, e: Appointment)
    ensures Available([a, b, c, d, e]) == Keep(a) + (Keep(b) + (Keep(c) + (Keep(d) + Keep(e))))
  {
    AvailableOfFour(b, c, d, e);
    assert [a, b, c, d, e] == [a] + [b, c, d, e];
    AvailableCons(a, [b, c, d, e]);
  }

  lemma {:induction false} CountCons(x: Appointment, s: seq<Appointment>, t: Minute)
    ensures CountStartingAt([x] + s, t) == (if x.start == t then 1 else 0) + CountStartingAt(s, t)
  {
    assert ([x] + s)[1..] == s;
  }

  function Hit(a: Appointment, t: Minute): nat {
    if a.start == t then 1 else 0
  }

  lemma {:induction false} CountFour(a: Appointment, b: Appointment, c: Appointment, d: Appointment, t: Minute)
    ensures CountStartingAt([a, b, c, d], t) == Hit(a, t) + Hit(b, t) + Hit(c, t) + Hit(d, t)
  {
    assert CountStartingAt([d], t) == Hit(d, t) by {
      CountCons(d, [], t);
    }
    assert CountStartingAt([c, d], t) == Hit(c, t) + Hit(d, t) by {
      assert [c, d] == [c] + [d];
      CountCons(c, [d], t);
    }
    assert CountStartingAt([b, c, d], t) == Hit(b, t) + Hit(c, t) + Hit(d, t) by {
      assert [b, c, d] == [b] + [c, d];
      CountCons(b, [c, d], t);
    }
    assert [a, b, c, d] == [a] + [b, c, d];
    CountCons(a, [b, c, d], t);
  }

  lemma {:induction false} SpanCons(x: Appointment, s: seq<Appointment>)
    ensures TotalSpan([x] + s) == Span(x) + TotalSpan(s)
  {
    assert ([x] + s)[1..] == s;
  }

  lemma {:induction false} SpanOfFive(a: Appointment, b: Appointment, c: Appointment, d: Appointment, e: Appointment)
    ensures TotalSpan([a, b, c, d, e]) == Span(a) + Span(b) + Span(c) + Span(d) + Span(e)
  {
    SpanCons(e, []);
    assert [d, e] == [d] + [e];
    SpanCons(d, [e]);
    assert [c, d, e] == [c] + [d, e];
    SpanCons(c, [d, e]);
    assert [b, c, d, e] == [b] + [c, d, e];
    SpanCons(b, [c, d, e]);
    assert [a, b, c, d, e] == [a] + [b, c, d, e];
    SpanCons(a, [b, c, d, e]);
  }

  const BorisTemple := Appointment(555, 595, Some("Hair ext temple"), Some(Boris), false, false)

  /** Boris wants a 40-minute temple extension; the earliest slot long enough
      is Anna's wait, which he does not use up. */
  lemma {:induction false} BorisCandidates()
    ensures Available(AfterBotox.appointments) == [AnnaWait, RestOfDay]
  {
    AvailableOfFour(AnnaFirst, AnnaWait, AnnaLast, RestOfDay);
  }

  lemma {:induction false} BorisFitsInWait()
    ensures FindFit([AnnaWait, RestOfDay], Boris, 40) == Some(Fit(AnnaWait, false))
  {
    assert Qualifies(AnnaWait, Boris, 40);
  }

  /** Exactly one slot of the day starts at 09:15: Anna's wait. */
  lemma {:induction false} WaitLookup()
    ensures CountStartingAt(AfterBotox.appointments, 555) == 1
    ensures IndexStartingAt(AfterBotox.appointments, 555) == 1
    ensures ConsumedSlot(AfterBotox, 555) == AnnaWait
  {
    CountFour(AnnaFirst, AnnaWait, AnnaLast, RestOfDay, 555);
    assert AfterBotox.appointments[1..][0] == AnnaWait;
  }

  /** The day as written after Boris's commit: the slot freed after his stage
      runs to the end of the working day, across Anna's last stage. */
  const Overlapping := AfterBotox.(appointments := [AnnaFirst, AnnaLast, RestOfDay, BorisTemple, FreeSlot(595, 1080)])

  /** The day with the freed slot ending where Anna's wait ended. */
  const Reclaimed := AfterBotox.(appointments := [AnnaFirst, AnnaLast, RestOfDay, BorisTemple, FreeSlot(595, 615)])

  lemma {:induction false} BorisStage()
    ensures StageSlots(Boris, [40], 555, 1, "Hair ext temple") == [BorisTemple]
  {
    assert [40][1..] == [];
  }

  /** The commit of Boris's stage with the freed slot ending at `tailEnd`. */
  lemma {:induction false} BorisCommit(tailEnd: Minute)
    requires CountStartingAt(AfterBotox.appointments, 555) == 1
    requires tailEnd > 595
    ensures Commit(AfterBotox, Boris, [40], false, 555, "Hair ext temple", tailEnd)
              == AfterBotox.(appointments := [AnnaFirst, AnnaLast, RestOfDay, BorisTemple, FreeSlot(595, tailEnd)])
  {
    WaitLookup();
    CommitShape(AfterBotox, Boris, [40], false, 555, "Hair ext temple", tailEnd);
    NewSlotsShape(Boris, [40], 555, "Hair ext temple", false, tailEnd);
    BorisStage();
    assert Sum([40]) == 40;
    var s := AfterBotox.appointments;
    assert s[..1] + s[2..] == [AnnaFirst, AnnaLast, RestOfDay];
  }

  /** `make_appointment` as written succeeds on Boris's offer and leaves
      slots that overlap and add up to more than the working day. */
  lemma {:induction false} TrailingSlotOverlaps()
    ensures MakeAppointment(AfterBotox, Boris, [40], false, 555, "Hair ext temple") == Success(Overlapping)
    ensures TotalSpan(Overlapping.appointments) == 1005
    ensures !Disjoint(AnnaLast, FreeSlot(595, 1080))
    ensures !Partition(Overlapping)
  {
    WaitLookup();
    BorisCommit(1080);
    SpanOfFive(AnnaFirst, AnnaLast, RestOfDay, BorisTemple, FreeSlot(595, 1080));
  }

  lemma {:induction false} OverlapCandidates()
    ensures Available(Overlapping.appointments) == [RestOfDay, FreeSlot(595, 1080)]
  {
    AvailableOfFive(AnnaFirst, AnnaLast, RestOfDay, BorisTemple, FreeSlot(595, 1080));
  }

  /** A third client, with short thick hair. */
  const Carla := User(3, "Carla", "SHORT", "THICK")

  const CarlaCut := Appointment(595, 655, Some("Haircut"), Some(Carla), false, false)

  /** The day after Carla's haircut is committed as written into 09:55-18:00. */
  const AfterCut := Overlapping.(appointments := [AnnaFirst, AnnaLast, RestOfDay, BorisTemple,
                                                  CarlaCut, FreeSlot(655, 1080)])

  /** A haircut for short hair takes 60 minutes. */
  lemma {:induction false} CutStages()
    ensures GetProcedureStages(Haircut, Carla) == Some(Plan(60, [60]))
  {
  }

  /** Carla's haircut is offered 09:55, the start of the slot the commit as
      written freed. */
  lemma {:induction false} CutOffered()
    ensures FindFit(Available(Overlapping.appointments), Carla, 60) == Some(Fit(FreeSlot(595, 1080), false))
  {
    OverlapCandidates();
    var c := [RestOfDay, FreeSlot(595, 1080)];
    var r := FindFit(c, Carla, 60);
    assert Qualifies(c[1], Carla, 60);
    assert r.Some?;
    assert r.value.slot == c[1];
  }

  lemma {:induction false} CutCommit()
    ensures MakeAppointment(Overlapping, Carla, [60], false, 595, "Haircut") == Success(AfterCut)
  {
    FreedSlotLookup();
    CommitShape(Overlapping, Carla, [60], false, 595, "Haircut", 1080);
    NewSlotsShape(Carla, [60], 595, "Haircut", false, 1080);
    assert [60][1..] == [] && Sum([60]) == 60;
    assert StageSlots(Carla, [60], 595, 1, "Haircut") == [CarlaCut];
    var s := Overlapping.appointments;
    assert s[..4] + s[5..] == [AnnaFirst, AnnaLast, RestOfDay, BorisTemple];
    assert NewSlots(Carla, [60], 595, "Haircut", false, 1080) == [CarlaCut] + [FreeSlot(655, 1080)];
    assert Commit(Overlapping, Carla, [60], false, 595, "Haircut", 1080) == AfterCut;
    assert Overlapping.workEnd == 1080;
  }

  /** After the commit as written, a third client's haircut is offered
      09:55 and booked 09:55-10:55, across the ten minutes Anna is still
      booked for: two busy slots of the day overlap. */
  lemma {:induction false} DoubleBooking()
    ensures GetProcedureStages(Haircut, Carla) == Some(Plan(60, [60]))
    ensures FindFit(Available(Overlapping.appointments), Carla, 60) == Some(Fit(FreeSlot(595, 1080), false))
    ensures MakeAppointment(Overlapping, Carla, [60], false, 595, "Haircut") == Success(AfterCut)
    ensures CarlaCut in AfterCut.appointments && AnnaLast in AfterCut.appointments
    ensures !CarlaCut.available && !AnnaLast.available && !Disjoint(CarlaCut, AnnaLast)
  {
    CutStages();
    CutOffered();
    CutCommit();
    assert AfterCut.appointments[4] == CarlaCut && AfterCut.appointments[1] == AnnaLast;
  }


  lemma {:induction false} ReclaimingCommit()
    ensures MakeAppointmentReclaiming(AfterBotox, Boris, [40], false, 555, "Hair ext temple") == Success(Reclaimed)
  {
    WaitLookup();
    BorisCommit(615);
  }

  lemma {:induction false} BorisBooks()
    ensures Book(AfterBotox, Boris, Plan(40, [40]), "Hair ext temple") == (Reclaimed, Some(Fit(AnnaWait, false)))
  {
    BorisCandidates();
    BorisFitsInWait();
    ReclaimingCommit();
  }

  lemma {:induction false} AfterBotoxReady()
    ensures Ready(AfterBotox)
  {
    AnnaBooksBotox();
  }

  lemma {:induction false} TempleValid()
    ensures ValidPlan(Plan(40, [40]))
  {
    assert [40][1..] == [] && Sum([40]) == 40;
  }

  /** With the freed slot ending where the consumed slot ended, the same
      commit hands back only the rest of Anna's wait and keeps the day
      partitioned. */
  lemma {:induction false} ReclaimingKeepsPartition()
    ensures Partition(Reclaimed)
  {
    AfterBotoxReady();
    TempleValid();
    BookKeepsPartition(AfterBotox, Boris, Plan(40, [40]), "Hair ext temple");
    BorisBooks();
  }

  // The commit as written, continued: a third client's booking into the
  // overlapping slot leaves two slots starting at 10:15, and the next offer
  // for 10:15 can no longer be committed.

  /** Anna's commit as written gives the same day as the reclaiming one,
      since the slot she consumes ends at the end of the working day. */
  lemma {:induction false} AnnaCommitsAsWritten()
    ensures MakeAppointment(EmptyDay.(appointments := [FreeSlot(540, 1080)]),
                            Anna, [15, 60, 10], false, 540, "Botox") == Success(AfterBotox)
  {
    AnnaCommits();
    var seeded := EmptyDay.(appointments := [FreeSlot(540, 1080)]);
    assert CountStartingAt(seeded.appointments, 540) == 1;
    assert ConsumedSlot(seeded, 540).end == seeded.workEnd;
  }

  const CarlaFirst := Appointment(595, 615, Some("Simple Color"), Some(Carla), false, false)
  const CarlaWait := Appointment(615, 655, None, Some(Carla), true, false)
  const CarlaLast := Appointment(655, 665, Some("Simple Color"), Some(Carla), false, false)

  /** The day after Carla's colour is committed as written into the slot
      09:55-18:00: her wait starts at 10:15, as does Anna's last stage. */
  const AfterColour := Overlapping.(appointments := [AnnaFirst, AnnaLast, RestOfDay, BorisTemple,
                                                     CarlaFirst, CarlaWait, CarlaLast, FreeSlot(665, 1080)])

  lemma {:induction false} AvailableAppend(a: seq<Appointment>, b: seq<Appointment>)
    ensures Available(a + b) == Available(a) + Available(b)
  {
    if a == [] {
      assert a + b == b;
    } else {
      var x, rest := a[0], a[1..];
      assert Available(a) == Keep(x) + Available(rest) by {
        assert a == [x] + rest;
        AvailableCons(x, rest);
      }
      assert Available(a + b) == Keep(x) + Available(rest + b) by {
        assert a + b == [x] + (rest + b);
        AvailableCons(x, rest + b);
      }
      AvailableAppend(rest, b);
    }
  }

  lemma {:induction false} CountAppend(a: seq<Appointment>, b: seq<Appointment>, t: Minute)
    ensures CountStartingAt(a + b, t) == CountStartingAt(a, t) + CountStartingAt(b, t)
  {
    if a == [] {
      assert a + b == b;
    } else {
      CountAppend(a[1..], b, t);
      assert (a + b)[1..] == a[1..] + b;
    }
  }

  /** Simple colour for short thick hair: 20 minutes, a 40-minute wait, 10
      minutes. */
  lemma {:induction false} ColourStages()
    ensures GetProcedureStages(SimpleColor, Carla) == Some(Plan(70, [20, 40, 10]))
  {
  }

  /** Carla is offered 09:55, the start of the slot the commit as written
      freed, with time to spare. */
  lemma {:induction false} CarlaOffered()
    ensures FindFit(Available(Overlapping.appointments), Carla, 70) == Some(Fit(FreeSlot(595, 1080), false))
  {
    OverlapCandidates();
    var c := [RestOfDay, FreeSlot(595, 1080)];
    var r := FindFit(c, Carla, 70);
    assert Qualifies(c[1], Carla, 70);
    assert r.Some?;
    assert r.value.slot == c[1];
  }

  lemma {:induction false} ColourLayout()
    ensures StageSlots(Carla, [20, 40, 10], 595, 1, "Simple Color") == [CarlaFirst, CarlaWait, CarlaLast]
  {
    assert [20, 40, 10][1..] == [40, 10];
    assert [40, 10][1..] == [10];
    assert [10][1..] == [];
  }

  lemma {:induction false} FreedSlotLookup()
    ensures CountStartingAt(Overlapping.appointments, 595) == 1
    ensures IndexStartingAt(Overlapping.appointments, 595) == 4
  {
    var s := Overlapping.appointments;
    CountFour(AnnaFirst, AnnaLast, RestOfDay, BorisTemple, 595);
    CountCons(FreeSlot(595, 1080), [], 595);
    assert s == [AnnaFirst, AnnaLast, RestOfDay, BorisTemple] + [FreeSlot(595, 1080)];
    CountAppend([AnnaFirst, AnnaLast, RestOfDay, BorisTemple], [FreeSlot(595, 1080)], 595);
    assert s[4].start == 595;
  }

  /** `make_appointment` as written commits Carla's colour into 09:55-18:00. */
  lemma {:induction false} ColourCommit()
    ensures MakeAppointment(Overlapping, Carla, [20, 40, 10], false, 595, "Simple Color") == Success(AfterColour)
  {
    FreedSlotLookup();
    CommitShape(Overlapping, Carla, [20, 40, 10], false, 595, "Simple Color", 1080);
    NewSlotsShape(Carla, [20, 40, 10], 595, "Simple Color", false, 1080);
    ColourLayout();
    SumOfThree(20, 40, 10);
    var s := Overlapping.appointments;
    assert s[..4] + s[5..] == [AnnaFirst, AnnaLast, RestOfDay, BorisTemple];
    assert NewSlots(Carla, [20, 40, 10], 595, "Simple Color", false, 1080)
        == [CarlaFirst, CarlaWait, CarlaLast] + [FreeSlot(665, 1080)];
    assert Commit(Overlapping, Carla, [20, 40, 10], false, 595, "Simple Color", 1080) == AfterColour;
    assert Overlapping.workEnd == 1080;
  }

  /** Carla's day splits into the four slots before her booking and the four
      it made. */
  lemma {:induction false} ColourHalves()
    ensures Available(AfterColour.appointments)
            == Available([AnnaFirst, AnnaLast, RestOfDay, BorisTemple])
               + Available([CarlaFirst, CarlaWait, CarlaLast, FreeSlot(665, 1080)])
  {
    var p, q := [AnnaFirst, AnnaLast, RestOfDay, BorisTemple], [CarlaFirst, CarlaWait, CarlaLast, FreeSlot(665, 1080)];
    assert AfterColour.appointments == p + q;
    AvailableAppend(p, q);
  }

  /** The slots the search sees after Carla's colour: the rest of the day,
      Carla's wait, and the free slot after her last stage. */
  lemma {:induction false} ColourCandidates()
    ensures Available(AfterColour.appointments) == [RestOfDay, CarlaWait, FreeSlot(665, 1080)]
  {
    ColourHalves();
    AvailableOfFour(AnnaFirst, AnnaLast, RestOfDay, BorisTemple);
    AvailableOfFour(CarlaFirst, CarlaWait, CarlaLast, FreeSlot(665, 1080));
  }

  /** Boris's next 40-minute request fits Carla's wait exactly. */
  lemma {:induction false} BorisOfferedCarlaWait()
    ensures FindFit([RestOfDay, CarlaWait, FreeSlot(665, 1080)], Boris, 40) == Some(Fit(CarlaWait, true))
  {
    var c := [RestOfDay, CarlaWait, FreeSlot(665, 1080)];
    var r := FindFit(c, Boris, 40);
    assert Qualifies(c[1], Boris, 40);
    assert r.Some?;
    assert r.value.slot == c[1];
  }

  /** Two slots of the day now start at 10:15: Anna's last stage and Carla's
      wait. */
  lemma {:induction false} StartClash()
    ensures CountStartingAt(AfterColour.appointments, 615) == 2
  {
    var p, q := [AnnaFirst, AnnaLast, RestOfDay, BorisTemple], [CarlaFirst, CarlaWait, CarlaLast, FreeSlot(665, 1080)];
    assert AfterColour.appointments == p + q;
    CountAppend(p, q, 615);
    CountFour(AnnaFirst, AnnaLast, RestOfDay, BorisTemple, 615);
    CountFour(CarlaFirst, CarlaWait, CarlaLast, FreeSlot(665, 1080), 615);
  }

  lemma {:induction false} BorisOfferAt1015()
    ensures GetAvailableTimeSlot(AfterColour, Plan(40, [40]), Boris)
              == (AfterColour, Offer(FormatHM(615), FormatHM(655), true))
  {
    ColourCandidates();
    BorisOfferedCarlaWait();
  }

  /** After the commits as written of Anna's Botox, Boris's extension and
      Carla's colour, the search offers Boris 10:15 as an exact fit; the offer
      passed back through the confirmation buttons parses, but its commit
      raises `MultipleObjectsReturned`. */
  lemma {:induction false} OfferedStartClashes()
    ensures var r := GetAvailableTimeSlot(AfterColour, Plan(40, [40]), Boris);
            && r.1.Offer?
            && ParseStartTime(r.1.startTime) == Some(615)
            && MakeAppointment(r.0, Boris, [40], ParseFlag(BoolText(r.1.deleteCurrentAppointment)),
                               615, "Hair ext temple") == Failure(MultipleObjectsReturned)
  {
    BorisOfferAt1015();
    StartClash();
    assert ParseStartTime(FormatHM(615)) == Some(615);
  }
}

=== FILE: schedule.dfy ===
/**
 The day schedule: a work day's appointment slots, the lazy seeding of the
 first free slot, the first-fit search for a procedure's total duration, and
 the commit that replaces the chosen slot by the procedure's stages.
 */
module Schedule {
  import opened Wrappers
  import opened Clock
  import opened Catalog

  /** The first name whose holder's own slots are not skipped. */
  const ExemptFirstName: string := "bot_one"

  /** The fields of a user the core reads. Two users are the same when their
      primary keys are (Django model equality); a slot's copy of its user
      stands for the key only. */
  datatype User = User(userId: int, firstName: string, hairLength: string, hairDensity: string)

  /** An appointment slot of one work day. */
  datatype Appointment = Appointment(
    start: Minute,
    end: Minute,
    procedure: Option<string>,
    user: Option<User>,
    available: bool,
    cancelled: bool)

  datatype WorkDay = WorkDay(
    workStart: Minute,
    workEnd: Minute,
    isVisible: bool,
    isWeekend: bool,
    appointments: seq<Appointment>)

  /** The length of a slot in minutes; negative for a slot whose end time
      lies before its start time. */
  function Span(a: Appointment): int {
    a.end - a.start
  }

  /** `Appointment.get_total_time`: both times are combined with the date
      `datetime.now()` gives, taken here as one date `today` days after some
      epoch, and subtracted. The date cancels out, so the result is the
      slot's span whatever the date. */
  function GetTotalTime(a: Appointment, today: nat): (r: int)
    ensures r == Span(a)
    ensures r > 0 <==> a.start < a.end
  {
    var startInstant := today * MinutesPerDay + a.start;
    var endInstant := today * MinutesPerDay + a.end;
    endInstant - startInstant
  }

  /** An unassigned, unlabelled, bookable slot. */
  function FreeSlot(start: Minute, end: Minute): Appointment {
    Appointment(start, end, None, None, true, false)
  }

  /* ---------------------------------------------------------------------
     Seeding
     --------------------------------------------------------------------- */

  /** `filter(available_slot=True)`, keeping the order. */
  function Available(s: seq<Appointment>): (r: seq<Appointment>)
    ensures forall a :: a in r <==> a in s && a.available
  {
    if s == [] then [] else (if s[0].available then [s[0]] else []) + Available(s[1..])
  }

  /** `WorkDay.get_or_create_appointments_slots`: the day after the call and
      the available slots it returns. */
  function GetOrCreateAppointmentsSlots(day: WorkDay): (r: (WorkDay, seq<Appointment>))
    ensures r.0 == day.(appointments := r.0.appointments)
    ensures |day.appointments| == 0 ==> r.0.appointments == [FreeSlot(day.workStart, day.workEnd)]
    ensures |day.appointments| > 0 ==> r.0 == day
    ensures |r.0.appointments| > 0
    ensures forall a :: a in r.1 <==> a in r.0.appointments && a.available
  {
    if |day.appointments| == 0 then
      var seeded := day.(appointments := [FreeSlot(day.workStart, day.workEnd)]);
      (seeded, Available(seeded.appointments))
    else
      (day, Available(day.appointments))
  }

  /** A second call changes nothing and returns the same slots. */
  lemma {:induction false} SeedingIdempotent(day: WorkDay)
    ensures var r := GetOrCreateAppointmentsSlots(day);
            GetOrCreateAppointmentsSlots(r.0) == r
  {
  }

  /* ---------------------------------------------------------------------
     First-fit search
     --------------------------------------------------------------------- */

  predicate SortedByStart(s: seq<Appointment>) {
    forall i, j :: 0 <= i < j < |s| ==> s[i].start <= s[j].start
  }

  /** Inserts `x` before the first slot that does not start earlier, so equal
      start times keep their original order. */
  function InsertByStart(x: Appointment, s: seq<Appointment>): (r: seq<Appointment>)
    requires SortedByStart(s)
    ensures |r| == |s| + 1
    ensures r[0] == x || (|s| > 0 && r[0] == s[0])
    ensures SortedByStart(r)
    ensures multiset(r) == multiset{x} + multiset(s)
  {
    if s == [] || x.start <= s[0].start then
      [x] + s
    else
      var rest := InsertByStart(x, s[1..]);
      assert multiset(s) == multiset{s[0]} + multiset(s[1..]) by {
        assert s == [s[0]] + s[1..];
      }
      [s[0]] + rest
  }

  /** `list.sort(key=start_time)`, a stable sort (`SortByStartStable`). */
  function SortByStart(s: seq<Appointment>): (r: seq<Appointment>)
    ensures SortedByStart(r)
    ensures multiset(r) == multiset(s)
  {
    if s == [] then []
    else
      assert s == [s[0]] + s[1..];
      InsertByStart(s[0], SortByStart(s[1..]))
  }

  /** The slots of `s` that start at `t`, in order. */
  function StartingAt(s: seq<Appointment>, t: Minute): seq<Appointment> {
    if s == [] then [] else (if s[0].start == t then [s[0]] else []) + StartingAt(s[1..], t)
  }

  /** The inserted slot goes before every slot with the same start time, and
      those keep their order. */
  lemma {:induction false} InsertKeepsTies(x: Appointment, s: seq<Appointment>, t: Minute)
    requires SortedByStart(s)
    ensures StartingAt(InsertByStart(x, s), t) == (if x.start == t then [x] else []) + StartingAt(s, t)
  {
    if s == [] || x.start <= s[0].start {
      assert ([x] + s)[1..] == s;
    } else {
      var rest := InsertByStart(x, s[1..]);
      InsertKeepsTies(x, s[1..], t);
      assert ([s[0]] + rest)[1..] == rest;
      assert StartingAt([s[0]] + rest, t) == (if s[0].start == t then [s[0]] else []) + StartingAt(rest, t);
    }
  }

  /** The sort is stable: slots with the same start time keep their relative
      order. With `SortedByStart` and the permutation, this fixes the result. */
  lemma {:induction false} SortByStartStable(s: seq<Appointment>, t: Minute)
    ensures StartingAt(SortByStart(s), t) == StartingAt(s, t)
  {
    if s != [] {
      SortByStartStable(s[1..], t);
      InsertKeepsTies(s[0], SortByStart(s[1..]), t);
    }
  }

  /** The skip rule of the search: a slot the requester already holds is
      passed over, unless the requester's first name is `bot_one`. The slot
      stores only the user's key, so the name is read from the requester's
      current row, not from the copy kept in the slot. */
  predicate Skipped(a: Appointment, requester: User) {
    && a.user.Some?
    && a.user.value.userId == requester.userId
    && requester.firstName != ExemptFirstName
  }

  /** Unassigned slots and slots of other users are never skipped; the
      requester's own slots (equal keys) are skipped exactly when the
      requester's first name is not `bot_one`, whatever the slot's copy of
      the user says. */
  lemma {:induction false} SkipRule(a: Appointment, requester: User)
    ensures a.user.None? ==> !Skipped(a, requester)
    ensures a.user.Some? && a.user.value.userId != requester.userId ==> !Skipped(a, requester)
    ensures (a.user.Some? && a.user.value.userId == requester.userId)
              ==> (Skipped(a, requester) <==> requester.firstName != ExemptFirstName)
  {
  }

  /** A slot the search may choose for a procedure of `total` minutes. */
  predicate Qualifies(a: Appointment, requester: User, total: nat) {
    !Skipped(a, requester) && total <= Span(a)
  }

  /** The loop of `get_available_time_slot` from position `k` on. */
  function FirstFitFrom(c: seq<Appointment>, requester: User, total: nat, k: nat): (r: Option<nat>)
    requires k <= |c|
    decreases |c| - k
    ensures r.Some? ==> k <= r.value < |c| && Qualifies(c[r.value], requester, total)
    ensures r.Some? ==> forall j :: k <= j < r.value ==> !Qualifies(c[j], requester, total)
    ensures r.None? ==> forall j :: k <= j < |c| ==> !Qualifies(c[j], requester, total)
  {
    if k == |c| then None
    else if Skipped(c[k], requester) then FirstFitFrom(c, requester, total, k + 1)
    else if total == Span(c[k]) || total < Span(c[k]) then Some(k)
    else FirstFitFrom(c, requester, total, k + 1)
  }

  /** The slot the search settles on, and whether it is consumed exactly. */
  datatype Fit = Fit(slot: Appointment, exact: bool)

  lemma {:induction false} SameMembers(s: seq<Appointment>, t: seq<Appointment>)
    requires multiset(s) == multiset(t)
    ensures forall a :: a in s <==> a in t
  {
    forall a ensures a in s <==> a in t {
      assert a in s <==> a in multiset(s);
      assert a in t <==> a in multiset(t);
    }
  }

  /** In a list sorted by start time, every slot starting before position
      `i` sits before it. */
  lemma {:induction false} NoEarlierFit(c: seq<Appointment>, requester: User, total: nat, i: nat)
    requires SortedByStart(c) && i < |c|
    requires forall j :: 0 <= j < i ==> !Qualifies(c[j], requester, total)
    ensures forall a :: a in c && a.start < c[i].start ==> !Qualifies(a, requester, total)
  {
    forall a | a in c && a.start < c[i].start ensures !Qualifies(a, requester, total) {
      var j :| 0 <= j < |c| && c[j] == a;
      assert j < i;
    }
  }

  /** The search over the available slots `candidates`: sort by start time,
      take the first qualifying slot. */
  function FindFit(candidates: seq<Appointment>, requester: User, total: nat): (r: Option<Fit>)
    ensures r.None? <==> forall a :: a in candidates ==> !Qualifies(a, requester, total)
    ensures r.Some? ==> r.value.slot in candidates && Qualifies(r.value.slot, requester, total)
    ensures r.Some? ==> (r.value.exact <==> Span(r.value.slot) == total)
    ensures r.Some? ==> forall a :: a in candidates && a.start < r.value.slot.start ==>
                                      !Qualifies(a, requester, total)
  {
    var c := SortByStart(candidates);
    var k := FirstFitFrom(c, requester, total, 0);
    SameMembers(candidates, c);
    if k.None? then
      None
    else
      NoEarlierFit(c, requester, total, k.value);
      Some(Fit(c[k.value], Span(c[k.value]) == total))
  }

  /** The dictionary `get_available_time_slot` returns. */
  datatype TimeSlotReply =
    | Cancelled
    | Offer(startTime: string, endTime: string, deleteCurrentAppointment: bool)

  /** `reply` offers slot `a` of `day`: an available slot the requester may
      take, named by its start and the end of the procedure, flagged as
      consumed exactly when the procedure fills it, with no qualifying
      available slot starting earlier. The times are rendered as `%H:%M`,
      which `ParseHM` reads back (`Clock.ParseFormat`). */
  predicate OfferedAt(day: WorkDay, reply: TimeSlotReply, a: Appointment, requester: User, total: nat)
    requires reply.Offer?
  {
    && a in day.appointments && a.available && Qualifies(a, requester, total)
    && a.start + total < MinutesPerDay
    && reply.startTime == FormatHM(a.start)
    && reply.endTime == FormatHM(ClockOf(a.start + total))
    && (reply.deleteCurrentAppointment <==> Span(a) == total)
    && (forall b :: b in day.appointments && b.available && b.start < a.start ==> !Qualifies(b, requester, total))
  }

  /** `WorkDay.get_available_time_slot`: seeds the day, then searches its
      available slots for `plan.total` minutes. */
  function GetAvailableTimeSlot(day: WorkDay, plan: Plan, requester: User): (r: (WorkDay, TimeSlotReply))
    ensures r.0 == GetOrCreateAppointmentsSlots(day).0
    ensures r.1.Cancelled? <==>
              forall a :: a in r.0.appointments && a.available ==> !Qualifies(a, requester, plan.total)
    ensures r.1.Offer? ==> exists a :: OfferedAt(r.0, r.1, a, requester, plan.total)
  {
    var seeded := GetOrCreateAppointmentsSlots(day).0;
    var fit := FindFit(GetOrCreateAppointmentsSlots(day).1, requester, plan.total);
    if fit.None? then
      (seeded, Cancelled)
    else
      var a := fit.value.slot;
      var reply := Offer(FormatHM(a.start), FormatHM(ClockOf(a.start + plan.total)), fit.value.exact);
      OfferSound(day, plan, requester, a, reply);
      (seeded, reply)
  }

  lemma {:induction false} OfferSound(day: WorkDay, plan: Plan, requester: User, a: Appointment, reply: TimeSlotReply)
    requires FindFit(GetOrCreateAppointmentsSlots(day).1, requester, plan.total).Some?
    requires a == FindFit(GetOrCreateAppointmentsSlots(day).1, requester, plan.total).value.slot
    requires reply == Offer(FormatHM(a.start), FormatHM(ClockOf(a.start + plan.total)),
                            FindFit(GetOrCreateAppointmentsSlots(day).1, requester, plan.total).value.exact)
    ensures OfferedAt(GetOrCreateAppointmentsSlots(day).0, reply, a, requester, plan.total)
  {
    var seeded, c := GetOrCreateAppointmentsSlots(day).0, GetOrCreateAppointmentsSlots(day).1;
    assert a in c;
  }

  /* ---------------------------------------------------------------------
     Commit
     --------------------------------------------------------------------- */

  /** The two ways `appointments.get(start_time=...)` raises. */
  datatype CommitError = DoesNotExist | MultipleObjectsReturned

  /** How many slots start at `t`, whatever their availability. */
  function CountStartingAt(s: seq<Appointment>, t: Minute): nat {
    if s == [] then 0 else (if s[0].start == t then 1 else 0) + CountStartingAt(s[1..], t)
  }

  /** The slots that do not start at `t`, in order. */
  function WithoutStart(s: seq<Appointment>, t: Minute): seq<Appointment> {
    if s == [] then [] else (if s[0].start == t then [] else [s[0]]) + WithoutStart(s[1..], t)
  }

  /** The first slot starting at `t`. */
  function IndexStartingAt(s: seq<Appointment>, t: Minute): (k: nat)
    requires CountStartingAt(s, t) > 0
    ensures k < |s| && s[k].start == t
    ensures forall j :: 0 <= j < k ==> s[j].start != t
  {
    if s[0].start == t then 0 else 1 + IndexStartingAt(s[1..], t)
  }

  /** Removing the only slot that starts at `t` keeps exactly the others. */
  lemma {:induction false} RemoveOnly(s: seq<Appointment>, t: Minute)
    requires CountStartingAt(s, t) == 1
    ensures var k := IndexStartingAt(s, t); s[..k] + s[k + 1..] == WithoutStart(s, t)
  {
    if s[0].start == t {
      NoneStartingAt(s[1..], t);
      assert s[1..] == WithoutStart(s[1..], t);
    } else {
      var tail := s[1..];
      assert CountStartingAt(tail, t) == 1;
      RemoveOnly(tail, t);
      var k := IndexStartingAt(tail, t);
      assert IndexStartingAt(s, t) == k + 1;
      assert WithoutStart(s, t) == [s[0]] + WithoutStart(tail, t);
      assert s[..k + 1] == [s[0]] + tail[..k];
      assert s[k + 2..] == tail[k + 1..];
      assert s[..k + 1] + s[k + 2..] == [s[0]] + (tail[..k] + tail[k + 1..]);
    }
  }

  lemma {:induction false} NoneStartingAt(s: seq<Appointment>, t: Minute)
    requires CountStartingAt(s, t) == 0
    ensures WithoutStart(s, t) == s
    ensures forall j :: 0 <= j < |s| ==> s[j].start != t
  {
    if s != [] {
      NoneStartingAt(s[1..], t);
    }
  }

  /** Stage `i` of `stages` laid from `cursor` and numbered from `index`, as
      the loop of `make_appointment` creates it: it starts where the stages
      before it end; odd-numbered stages are busy and carry the procedure
      name, even-numbered (wait) stages stay available and unlabelled; every
      stage belongs to `user`. */
  function StageAt(user: User, stages: seq<nat>, cursor: nat, index: nat, name: string, i: nat): Appointment
    requires i < |stages|
  {
    Appointment(ClockOf(cursor + Sum(stages[..i])), ClockOf(cursor + Sum(stages[..i + 1])),
                if (index + i) % 2 == 0 then None else Some(name),
                Some(user), (index + i) % 2 == 0, false)
  }

  ghost predicate StagesAt(n: seq<Appointment>, user: User, stages: seq<nat>, cursor: nat, index: nat, name: string) {
    && |n| == |stages|
    && forall i :: 0 <= i < |n| ==> n[i] == StageAt(user, stages, cursor, index, name, i)
  }

  lemma {:induction false} SumPrefixStep(s: seq<nat>, i: nat)
    requires 0 < i <= |s|
    ensures Sum(s[..i]) == s[0] + Sum(s[1..][..i - 1])
  {
    assert s[..i][1..] == s[1..][..i - 1];
  }

  /** The slots the loop of `make_appointment` creates, numbering stages from
      `index`. */
  function StageSlots(user: User, stages: seq<nat>, cursor: nat, index: nat, name: string): (n: seq<Appointment>)
    decreases |stages|
    ensures |n| == |stages|
  {
    if stages == [] then []
    else
      [Appointment(ClockOf(cursor), ClockOf(cursor + stages[0]),
                   if index % 2 == 0 then None else Some(name),
                   Some(user), index % 2 == 0, false)]
        + StageSlots(user, stages[1..], cursor + stages[0], index + 1, name)
  }

  /** Stage `i` of `stages` is stage `i - 1` of the stages after the first,
      laid from where the first one ends. */
  lemma {:induction false} StageAtShift(user: User, stages: seq<nat>, cursor: nat, index: nat, name: string, i: nat)
    requires 0 < i < |stages|
    ensures StageAt(user, stages, cursor, index, name, i)
              == StageAt(user, stages[1..], cursor + stages[0], index + 1, name, i - 1)
  {
    SumPrefixStep(stages, i);
    SumPrefixStep(stages, i + 1);
    var a, b := cursor + Sum(stages[..i]), cursor + stages[0] + Sum(stages[1..][..i - 1]);
    var c, d := cursor + Sum(stages[..i + 1]), cursor + stages[0] + Sum(stages[1..][..i]);
    assert a == b && c == d;
    assert ClockOf(a) == ClockOf(b) && ClockOf(c) == ClockOf(d);
    assert (index + i) % 2 == (index + 1 + (i - 1)) % 2;
  }

  lemma {:induction false} StageSlotAt(user: User, stages: seq<nat>, cursor: nat, index: nat, name: string, i: nat)
    requires i < |stages|
    decreases i
    ensures StageSlots(user, stages, cursor, index, name)[i] == StageAt(user, stages, cursor, index, name, i)
  {
    var rest := StageSlots(user, stages[1..], cursor + stages[0], index + 1, name);
    assert StageSlots(user, stages, cursor, index, name)[1..] == rest;
    if i == 0 {
      SumPrefixStep(stages, 1);
      assert stages[1..][..0] == [];
      assert stages[..0] == [];
    } else {
      StageSlotAt(user, stages[1..], cursor + stages[0], index + 1, name, i - 1);
      StageAtShift(user, stages, cursor, index, name, i);
    }
  }

  /** The loop lays out exactly the stages `StageAt` describes. */
  lemma {:induction false} StageLayout(user: User, stages: seq<nat>, cursor: nat, index: nat, name: string)
    ensures StagesAt(StageSlots(user, stages, cursor, index, name), user, stages, cursor, index, name)
  {
    var n := StageSlots(user, stages, cursor, index, name);
    forall i | 0 <= i < |n|
      ensures n[i] == StageAt(user, stages, cursor, index, name, i)
    {
      StageSlotAt(user, stages, cursor, index, name, i);
    }
  }

  /** The slots a commit adds: the stages, then, unless the fit was exact, a
      free slot from the end of the last stage to `tailEnd`. */
  function NewSlots(user: User, stages: seq<nat>, start: Minute, name: string,
                    deleteCurrent: bool, tailEnd: Minute): seq<Appointment>
  {
    StageSlots(user, stages, start, 1, name)
      + (if deleteCurrent then [] else [FreeSlot(ClockOf(start + Sum(stages)), tailEnd)])
  }

  /** What a successful commit leaves: the other slots in order, then the
      stages, then the trailing free slot ending at `tailEnd`. */
  ghost predicate Committed(day: WorkDay, after: WorkDay, user: User, stages: seq<nat>,
                            deleteCurrent: bool, start: Minute, name: string, tailEnd: Minute)
  {
    var s, n := day.appointments, after.appointments;
    && |s| > 0
    && after == day.(appointments := n)
    && |n| == |s| - 1 + |stages| + (if deleteCurrent then 0 else 1)
    && n[..|s| - 1] == WithoutStart(s, start)
    && StagesAt(n[|s| - 1..|s| - 1 + |stages|], user, stages, start, 1, name)
    && (!deleteCurrent ==> n[|n| - 1] == FreeSlot(ClockOf(start + Sum(stages)), tailEnd))
  }

  /** The shared part of both commits once the lookup found the one slot. */
  function Commit(day: WorkDay, user: User, stages: seq<nat>, deleteCurrent: bool,
                  start: Minute, name: string, tailEnd: Minute): (after: WorkDay)
    requires CountStartingAt(day.appointments, start) == 1
    ensures Committed(day, after, user, stages, deleteCurrent, start, name, tailEnd)
  {
    var s := day.appointments;
    var k := IndexStartingAt(s, start);
    RemoveOnly(s, start);
    StageLayout(user, stages, start, 1, name);
    var kept := s[..k] + s[k + 1..];
    var n := kept + NewSlots(user, stages, start, name, deleteCurrent, tailEnd);
    assert n[..|s| - 1] == kept;
    assert n[|s| - 1..|s| - 1 + |stages|] == StageSlots(user, stages, start, 1, name);
    day.(appointments := n)
  }

  /** `WorkDay.make_appointment` as written: the trailing free slot ends at
      the end of the working day. */
  function MakeAppointment(day: WorkDay, user: User, stages: seq<nat>, deleteCurrent: bool,
                           start: Minute, name: string): (r: Result<WorkDay, CommitError>)
    ensures r.Success? <==> CountStartingAt(day.appointments, start) == 1
    ensures CountStartingAt(day.appointments, start) == 0 ==> r == Failure(DoesNotExist)
    ensures CountStartingAt(day.appointments, start) > 1 ==> r == Failure(MultipleObjectsReturned)
    ensures r.Success? ==> Committed(day, r.value, user, stages, deleteCurrent, start, name, day.workEnd)
  {
    var count := CountStartingAt(day.appointments, start);
    if count == 0 then Failure(DoesNotExist)
    else if count > 1 then Failure(MultipleObjectsReturned)
    else Success(Commit(day, user, stages, deleteCurrent, start, name, day.workEnd))
  }

  /** The slot a commit at `start` consumes. */
  function ConsumedSlot(day: WorkDay, start: Minute): (c: Appointment)
    requires CountStartingAt(day.appointments, start) == 1
    ensures c in day.appointments && c.start == start
  {
    day.appointments[IndexStartingAt(day.appointments, start)]
  }

  /** The commit with the trailing free slot ending where the consumed slot
      ended, so that only the consumed slot's time is handed out again. */
  function MakeAppointmentReclaiming(day: WorkDay, user: User, stages: seq<nat>, deleteCurrent: bool,
                                     start: Minute, name: string): (r: Result<WorkDay, CommitError>)
    ensures r.Success? <==> CountStartingAt(day.appointments, start) == 1
    ensures CountStartingAt(day.appointments, start) == 0 ==> r == Failure(DoesNotExist)
    ensures CountStartingAt(day.appointments, start) > 1 ==> r == Failure(MultipleObjectsReturned)
    ensures r.Success? ==>
              Committed(day, r.value, user, stages, deleteCurrent, start, name, ConsumedSlot(day, start).end)
  {
    var count := CountStartingAt(day.appointments, start);
    if count == 0 then Failure(DoesNotExist)
    else if count > 1 then Failure(MultipleObjectsReturned)
    else Success(Commit(day, user, stages, deleteCurrent, start, name, ConsumedSlot(day, start).end))
  }
}

=== FILE: text.dfy ===
/**
 The three Python string operations the procedure-name encoding relies on:
 `str.replace` of one character, `str.split(sep)` and `sep.join(parts)`.
 */
module Text {

  /** `s.replace(a, b)` for single characters `a` and `b`. */
  function ReplaceChar(s: string, a: char, b: char): (r: string)
    ensures |r| == |s|
    ensures forall i :: 0 <= i < |s| ==> r[i] == (if s[i] == a then b else s[i])
  {
    if s == [] then [] else [if s[0] == a then b else s[0]] + ReplaceChar(s[1..], a, b)
  }

  /** `s.split(sep)`: never empty, and `""` splits into `[""]`. */
  function Split(s: string, sep: char): (parts: seq<string>)
    ensures |parts| >= 1
    ensures forall i, j :: 0 <= i < |parts| && 0 <= j < |parts[i]| ==> parts[i][j] != sep
  {
    if s == [] then [[]]
    else if s[0] == sep then [[]] + Split(s[1..], sep)
    else
      var rest := Split(s[1..], sep);
      [[s[0]] + rest[0]] + rest[1..]
  }

  /** `sep.join(parts)`. */
  function Join(parts: seq<string>, sep: char): string
  {
    if |parts| == 0 then []
    else if |parts| == 1 then parts[0]
    else parts[0] + [sep] + Join(parts[1..], sep)
  }

  /** Splitting on `a` and joining with `b` replaces every `a` by `b`. */
  lemma {:induction false} JoinSplit(s: string, a: char, b: char)
    ensures Join(Split(s, a), b) == ReplaceChar(s, a, b)
  {
    if s == [] {
    } else if s[0] == a {
      JoinSplit(s[1..], a, b);
      var rest := Split(s[1..], a);
      assert Split(s, a) == [[]] + rest;
      assert ([[]] + rest)[1..] == rest;
    } else {
      JoinSplit(s[1..], a, b);
      var rest := Split(s[1..], a);
      var parts := [[s[0]] + rest[0]] + rest[1..];
      assert Split(s, a) == parts;
      if |rest| == 1 {
        assert Join(parts, b) == [s[0]] + rest[0];
      } else {
        assert parts[1..] == rest[1..];
        assert Join(rest, b) == rest[0] + [b] + Join(rest[1..], b);
        assert Join(parts, b) == [s[0]] + rest[0] + [b] + Join(rest[1..], b);
      }
    }
  }

  /** Replacing `a` by `b` and then `b` by `a` is the identity when `s` has
      no `b` to begin with. */
  lemma ReplaceBack(s: string, a: char, b: char)
    requires forall i :: 0 <= i < |s| ==> s[i] != b
    ensures ReplaceChar(ReplaceChar(s, a, b), b, a) == s
  {
  }
}

=== FILE: wrappers.dfy ===
/** Optional values and results, shared by the whole model. */
module Wrappers {

  /** A value that may be missing: a Python `None`, a missing dictionary key. */
  datatype Option<+T> = None | Some(value: T)

  /** The outcome of an operation that can raise. */
  datatype Result<+R, +E> = Success(value: R) | Failure(error: E)
}
